=== FILE: README.md ===
# coil: the tag-driven configuration walker, in Dafny

coil turns a Go configuration struct into command-line flags and then back into a filled
struct. Two reflective walks over the struct do the work:

- the **registration pass** (`defineFlagsFromStructWithPrefix`) visits every field. A nested
  struct is entered with its `prefix` tag joined to the ambient prefix by `_`. A leaf with a
  `name` tag is declared as a flag of the kind its `type` tag names, with the typed `default`
  tag as the default value and the `desc` tag as the usage text.
- the **assignment pass** (`setPropertiesFromFlagsWithPrefix`) walks the same prefixes. It
  fills each string, bool, int, float32 and float64 field from the resolver (viper) under the
  composed key, falling back to the `default` tag. Once a level's fields are done, it calls
  that level's `Parse` method.

The constructors `NewConfig` and `NewConfigWithFlagSet` run both passes. They also declare
the global `config` flag, which names a configuration file.

The repository also keeps the older walker of `main.go`. It uses bare names, has no prefixes,
parses float defaults with the integer parser, and copies resolved values unconditionally.
This model covers both walkers with one walk skeleton. A `Version` (`Current` or `Legacy`)
selects the rules that differ.

How Go concepts are represented:

- **Reflection.** The struct is a value of the `Schema.Struct` datatype. It is the type and
  the instance at once. A `Field` is either a nested struct with its `prefix` tag, or a leaf
  with its four tags and a `Cell`. The `Cell` constructor is the field's Go kind, and the
  `type` tag is kept separately, because the two passes look at different ones.
- **Flag sets.** A flag set is the sequence of its declarations. pflag's panic on a name
  defined twice is `None`.
- **Resolver.** Viper becomes a record of total functions (`Resolver`). `CreateViper` binds
  viper to the global flag set, so a constructor takes a `Binder`: a function from the
  global flag set to the resolver. The command-line arguments, the environment and the
  configuration file are fixed inside it, and the resolver the assignment pass sees is the
  binder applied to the global set as `generate` leaves it. Float and duration parsing, and
  the rounding to float32, become another parameter record (`Numerics`). Integer parsing (`strconv.ParseInt`/`Atoi` on a 64-bit platform) is written
  out.
- **Side effects.** The assignment pass also returns a trace: one `Read(path, key)` stands
  for the resolver lookups of one leaf, and `Hook(path)` for each `Parse` call. In the current
  walker those lookups are one `GetString` for a string (coil.go:161) and an `IsSet` followed,
  when it holds, by `GetBool`, `GetInt64` or `GetFloat64` for a bool, an int or a float
  (coil.go:171-172, 181-182, 193-194, 205-206). In the older walker every case is one bare
  `Get` of that kind (main.go:89-96), and a float32 makes none. Reads and hooks can therefore be
  stated about.

Where the code and its own comments and tests disagree, the model follows the code:

- The assignment pass does not skip unnamed leaves (coil.go:157-165). A string, bool, int or
  float field without a `name` tag is read under the empty key and falls back to its
  `default` tag, although the test fixture at coil_test.go:562 comments that such a field
  should remain at its zero value (`Leaves.UnnamedLeafStillRead`).
- The flag set passed to `NewConfigWithFlagSet` only receives declarations, although its
  comment (coil.go:238-239) presents it as the set the configuration uses. `generate`
  always binds the resolver to the global command line (coil.go:57, 242, 254), so that set is
  never read. The struct's flags reach the resolver only when `NewConfig` merges them
  (`Coil.MergeDecidesBinding`); `NewConfigWithFlagSet` behaves like `NewConfig` with
  `merge` false (`Coil.FlagSetVariantSameConfig`).
- main_test.go:43-44 treats the value `static` of a field whose declared default is `static`
  as an error. That expectation is not a property of the walker and is not encoded.

## Model

| member | source | states |
|---|---|---|
| Strings.Split | coil.go:98-99 | `strings.Split` with one separator always yields at least one piece |
| Strings.SplitPieces | coil.go:98-99 | no piece contains the separator, and there is exactly one piece more than there are separators |
| Strings.JoinSplit | coil.go:98-99 | joining the pieces with the separator gives back the original text |
| Strings.SplitJoin | coil.go:98-99 | splitting a join of separator-free parts gives back the parts |
| Strconv.ParseInt | coil.go:100-104 | a default is accepted exactly when it is one optional sign and a non-empty run of digits whose signed value fits 64 bits, and its value is that signed value |
| Strconv.FormatNat | coil.go:184-186 | the decimal rendering of a natural number is non-empty, made of digits, and has that number as its value |
| Strconv.ParseFormat | coil.go:184-186 | every 64-bit integer written in decimal parses back to itself |
| Schema.LevelStep | coil.go:143-155 | the struct level below index `k` of a struct is the level at `q` inside that field's body |
| Naming.ComposeAssociative | coil.go:73-81 | prefix composition is associative, so nested prefixes can be grouped either way |
| Naming.FoldPrefixFrom | coil.go:73-82 | entering a chain of structs from a non-empty prefix composes that prefix with the chain's own prefix |
| Naming.FoldPrefixSnoc | coil.go:73-82 | one more nested struct composes its tag onto the prefix in force above it |
| Naming.JoinNonEmptyParts | coil.go:75-81 | an underscore-join of non-empty tags is empty exactly when there are no tags |
| Naming.FoldPrefixIsJoin | coil.go:73-82 | at any depth, the prefix is the underscore-join of the non-empty `prefix` tags, outermost first |
| Naming.QualifiedNameIsComposition | coil.go:89-92 | a named leaf's flag name is its prefix composed with its name, and is longer than the prefix |
| Naming.ReadKeyAgrees | coil.go:157-160 | the assignment pass reads a named leaf under the name it was declared with, and an unnamed one under the empty key |
| Naming.QualifiedNameIsJoin | coil.go:73-92 | a named leaf's flag is the underscore-join of the non-empty prefix tags above it, followed by its name |
| Naming.CopiesClash | coil.go:89-92 | the same leaf under two prefixes gets equal names only when the prefixes are equal; a bare leaf `n` clashes with a `t`-prefixed leaf `m` exactly when `n` is `t_m` |
| Registration.DeclareLeaf | coil.go:85-126 | a declared flag carries the `desc` tag as its usage text; the current walker declares only named leaves, under the prefixed name, and the older one uses the bare `name` tag |
| Registration.DeclareLeafSkips | coil.go:85-126 | a leaf declares nothing exactly when it has no name, its `type` tag is unknown, or its default does not parse for that type |
| Registration.SliceDefaultIsSplit | coil.go:98-99 | a `[]string` default is always declared, as comma-free items that join back to the tag |
| Registration.LegacyBoolExactlyTrue | main.go:58-63 | the older walker's bool default is true exactly for the text "true" |
| Registration.RegisterList | coil.go:68-84 | under the current walker every declared name is non-empty and lies in the `prefix_` namespace of the ambient prefix |
| Registration.RegisterField | coil.go:71-84 | a nested field's declarations stay in the namespace of the prefix it is entered with |
| Registration.RegisterListMembers | coil.go:69-127 | a field list declares exactly what its fields declare |
| Registration.StepInto | coil.go:71-83 | descending into a nested field moves the path, the prefix and the declaration to that field's body |
| Registration.DeclaredIsRegistered | coil.go:68-128 | every leaf that the declaration rules accept is declared by the pass |
| Registration.RegisteredIsDeclared | coil.go:68-128 | every declaration of the pass comes from a leaf that the declaration rules accept |
| Registration.PathsAtFieldSorted | coil.go:69-83 | the accepted leaves at or below one field lie below that field and are listed in field order, depth first |
| Registration.PathsFromSorted | coil.go:69-127 | the accepted leaves of a run of fields lie below those fields and are listed in strict field order, depth first |
| Registration.PathsAtFieldDecls | coil.go:69-126 | the accepted leaves of one field name its declarations one for one |
| Registration.PathsFromDecls | coil.go:69-127 | the accepted leaves of a run of fields name its declarations one for one, in order |
| Registration.PathsFromComplete | coil.go:69-127 | every accepted leaf of a run of fields is listed |
| Registration.PathsAtFieldComplete | coil.go:69-83 | every accepted leaf under a given field is listed by that field |
| Registration.RegistrationExact | coil.go:62-128 | the registration pass declares one flag per accepted leaf, in field order, depth first, each under the name its path's prefixes give it, and nothing else |
| Registration.IndexOfAccepted | coil.go:62-128 | an accepted leaf's position in visiting order is the position of its declaration |
| Assignment.AssignCell | coil.go:156-211 | assignment keeps the field's Go kind and leaves a kind without a case untouched |
| Assignment.AssignList | coil.go:141-213 | the assignment pass keeps the number of fields |
| Assignment.ListEventsWithin | coil.go:141-213 | every read or hook of a field list belongs to one of its fields |
| Assignment.FieldEventsWithin | coil.go:143-211 | every read or hook of a field lies at or below that field |
| Assignment.StructEventsWithin | coil.go:138-219 | a level's own hook is its only event at its own path; it is the last event, and it occurs exactly when the level has `Parse` |
| Assignment.AssignStructShape | coil.go:138-219 | assignment writes leaf values only: tags, prefixes, hooks and Go kinds are unchanged |
| Assignment.AssignListShape | coil.go:141-213 | every field of a list keeps its shape |
| Assignment.AssignFieldShape | coil.go:143-211 | a field keeps its shape |
| Values.AssignCellIdempotent | coil.go:156-211 | assigning a leaf twice from the same resolver gives the same value as assigning it once |
| Values.SuppliedValueWins | coil.go:161-211 | a value the resolver supplies is stored as it is (a float32 through the float32 conversion), whatever the `default` tag and the field's prior value |
| Values.EmptyStringFallsBack | coil.go:161-165 | an empty resolved string is treated as absent, and the `default` tag is used instead |
| Values.BoolDefaultExactlyTrue | coil.go:105-110 | a bool flag and an unset bool field both default to true exactly for the text "true" |
| Values.BoolDefaultExamples | coil.go:171-175 | "TRUE", "1" and "True" all give false |
| Values.DefaultsAgree | coil.go:95-211 | with nothing supplied, a field whose `type` tag fits its kind receives the default its flag was declared with; when no flag was declared it keeps its value |
| Values.UntaggedLeafUnchanged | coil.go:156-211 | a leaf without tags is read under the empty key; with nothing there, a string becomes empty, a bool false, and a number keeps its value |
| Leaves.LeafAssigned | coil.go:141-212 | the leaf at any path receives the cell rule applied under the key that the path's prefixes give it, and keeps its tags |
| Leaves.LeafValue | coil.go:132-212 | the same for the whole instance, started with no prefix |
| Leaves.OtherKindsUntouched | coil.go:143-212 | a leaf of a kind without a case is left as it was |
| Leaves.ReadStruct | coil.go:138-219 | a level reads `key` at a relative path exactly when that path is a read leaf with that key |
| Leaves.ReadsExact | coil.go:132-219 | the whole pass reads each leaf of a read kind exactly once under its key (its count in the trace is one), and reads nothing else |
| Hooks.TraceNoRepeats | coil.go:132-219 | the assignment pass never records the same read or hook twice |
| Leaves.DeclaredKeyIsRead | coil.go:89-92 | every declared leaf of a read kind is read under exactly the name it was declared with |
| Leaves.ReadKeyIsQualifiedName | coil.go:157-160 | every key read is a leaf's prefixed name, empty exactly for an unnamed leaf, and equal to the declared name when the leaf was declared |
| Leaves.UnnamedLeafStillRead | coil.go:157-165 | an unnamed leaf declares no flag but is still read, under the empty key |
| Leaves.AssignFieldIdempotent | coil.go:143-211 | filling a field a second time from the same resolver changes nothing and repeats the same trace |
| Leaves.AssignListIdempotent | coil.go:141-213 | the same for a field list |
| Leaves.AssignStructIdempotent | coil.go:138-219 | the same for a struct level |
| Leaves.SetPropertiesIdempotent | coil.go:132-134 | filling an already filled instance from the same resolver returns it unchanged, with the same trace |
| Hooks.HooksLastAppend | coil.go:214-218 | joining two bottom-up traces keeps the order when no hook of the first covers an event of the second |
| Hooks.HookOrderList | coil.go:141-213 | a field list's trace is bottom-up |
| Hooks.HookOrderField | coil.go:143-155 | a field's trace is bottom-up |
| Hooks.HookOrderStruct | coil.go:138-219 | a level's trace is bottom-up |
| Hooks.HookAfterLevel | coil.go:214-218 | once a level's hook has run, no later read or hook lies at or below that level |
| Hooks.HookCountList | coil.go:141-213 | within a field list, the hook at a path below field `k` runs once if that field's body has a hooked level there, otherwise never |
| Hooks.HookCountStruct | coil.go:138-219 | a level runs the hook at a relative path once if there is a hooked level there, otherwise never |
| Hooks.HookOnce | coil.go:214-218 | every level with a `Parse` method has its hook run exactly once, and no other hook runs |
| FlagSets.Lookup | coil.go:54 | a lookup finds a flag with the asked name, and finds nothing exactly when no flag has that name |
| FlagSets.DeclareAll | coil.go:97-124 | a successful declaration sequence appends the flags in order |
| FlagSets.DeclareAllSucceeds | coil.go:97-124 | declaring into a consistent set succeeds exactly when no name ends up defined twice |
| FlagSets.AddFlagSet | coil.go:231 | merging keeps the existing flags first and adds only flags of the merged set |
| FlagSets.AddFlagSetLookup | coil.go:231 | after merging, a name resolves to the existing flag if there was one, otherwise to the merged set's flag |
| FlagSets.LookupSnoc | coil.go:231 | appending a flag changes only the lookup of its own name, and only when the name was undefined |
| FlagSets.AddFlagSetDistinct | coil.go:231 | merging keeps a consistent flag set consistent |
| Coil.Generate | coil.go:49-58 | after `generate` the global set defines `config`; an existing `config` is kept, otherwise the `config` flag is appended |
| Coil.NewConfig | coil.go:222-236 | the constructor succeeds exactly when the struct's names are distinct; it declares them into a fresh set; the global set is the given one, merged with them unless `merge` is false, plus `config`; the instance and the hook trace are those of the assignment pass over the resolver bound to that global set; the parser stored into the embedded `Config.viper` is that same resolver |
| Coil.MergedFlagsDefined | coil.go:230-233 | every merged flag is still defined after `generate` |
| Coil.NewConfigWithFlagSet | coil.go:240-245 | the struct's flags are appended to the caller's set, failing exactly on a repeated name; the global set receives only `config`; the instance and the hook trace are those of the assignment pass over the resolver bound to that global set; the parser stored into the embedded `Config.viper` is that same resolver |
| Coil.SetPropertiesFills | coil.go:138-219 | after the assignment pass every leaf holds the per-leaf rule's value under its key, each read leaf is read exactly once and nothing else is, and each hook runs once |
| Coil.NewConfigFills | coil.go:222-236 | the instance `NewConfig` returns holds at every leaf the value taken from the resolver bound to the final global set, with exact reads and one call per hook |
| Coil.NewConfigWithFlagSetFills | coil.go:240-245 | the same for `NewConfigWithFlagSet` |
| Coil.RepeatedNameIsClash | coil.go:68-128 | a name declared twice comes from two different accepted leaves |
| Coil.ClashIsRepeatedName | coil.go:68-128 | two different accepted leaves with one name make a name declared twice |
| Coil.NewConfigFailsOnClash | coil.go:222-224 | `NewConfig` fails exactly when two different accepted leaves get the same qualified name |
| Coil.MergeDecidesBinding | coil.go:230-233 | a struct flag new to the global set is bound to the resolver with the default merge, and not with merge false or with `NewConfigWithFlagSet` |
| Coil.MergeDefaultsToTrue | coil.go:226-229 | leaving out `merge` is passing true, and only its first value counts |
| Coil.FlagSetVariantSameConfig | coil.go:238-245 | `NewConfigWithFlagSet` leaves the global set as `NewConfig` with `merge` false does, and so fills the struct and calls the hooks identically |
| Coil.MergeKeepsExistingGlobal | coil.go:230-233 | with the default merge, a name the global set already defines keeps its global flag |
| Legacy.NewConfig | main.go:107-112 | the older constructor declares the struct's flags and then `config` on the global set, and succeeds exactly when no name is defined twice; the instance and the hook trace are those of the older assignment pass over the resolver bound to that global set; the parser stored into the embedded `Config.viper` is that same resolver |
| Legacy.NewConfigFills | main.go:107-112 | the instance the older `NewConfig` returns holds at every leaf the older rule's value under the bare name, with exact reads and one call per hook |
| Legacy.ConfigDefinedPanics | main.go:34-37 | when `config` is already defined, the older `generate` fails |
| Legacy.SecondCallPanics | main.go:34-37 | a second older `NewConfig` in the same process fails, whatever the struct |
| Legacy.ConfigLeafPanics | main.go:41-76 | a leaf named `config` makes the older constructor fail |
| Legacy.NamesAreBare | main.go:41-76 | every flag of the older walker is named by a leaf's bare `name` tag, at any depth |
| Legacy.KeysAreBare | main.go:80-98 | every key the older walker reads is a leaf's bare `name` tag |
| Legacy.Float32Untouched | main.go:94 | the older walker neither reads nor writes a float32 field |
| Legacy.IntegerParsedFloats | main.go:50-74 | float defaults go through the integer parser ("3.14" declares nothing, "3" declares 3.0), and `[]string`, `duration` and unknown tags declare nothing |
| Legacy.LegacyDeclareLeafSkips | main.go:50-74 | the older walker declares nothing exactly when the `type` tag is not one of its five, or is numeric with a default that is not a decimal integer; the flag keeps the bare name |
| Legacy.LegacyDefaultValues | main.go:52-73 | the declared default for each of the five tags; a float default is the integer value of the tag, converted |
| Legacy.UnnamedLeafDeclared | main.go:51-74 | whatever its `type` tag, the older walker declares an unnamed leaf under the empty name when its default is accepted, where the current one never declares it |
| Legacy.IgnoresDefaults | main.go:88-96 | the older walker stores the resolved string, bool, int or float64 unconditionally and leaves a float32 as it is, so its result depends neither on the `default` tag nor on the prior value |
| Legacy.EmptyStringRulesDiffer | main.go:89 | on an empty resolved string the older walker stores "", where the current one takes the `default` tag |
| Legacy.PrefixFreeNoPrefix | coil.go:73-81 | without `prefix` tags, the current walker's prefix is empty everywhere |
| Legacy.KeysAgreeWithoutPrefixes | main.go:88-96 | without `prefix` tags, both walkers read every leaf they both read under the same key |
| Scenarios.NestedPrefixNames | coil_test.go:467-489 | the nested prefix fixture declares exactly `outer_field` and `outer_inner_field`, with their defaults |
| Scenarios.OuterLeafAt | coil_test.go:473-476 | the outer field lies under the single prefix `outer` |
| Scenarios.InnerLeafAt | coil_test.go:474-480 | the inner field lies under the prefixes `outer` and `inner` |
| Scenarios.NestedPrefixValues | coil_test.go:487-521 | both nested fields are read under their composed names and fall back to their own defaults |
| Scenarios.DatabaseLeafAt | coil_test.go:134-139 | each database field lies under exactly its copy's prefix |
| Scenarios.DatabaseLeafValue | coil_test.go:134-139 | each copy's field is filled from the key under its copy's prefix |
| Scenarios.DatabaseDeclared | coil_test.go:134-139 | each copy's field is declared under its copy's prefix |
| Scenarios.PortDefault | configs.go:20 | the port default "5432" declares the integer 5432 |
| Scenarios.PrimaryReplicaDeclared | coil_test.go:134-139 | the two copies declare distinct flags `primary_dbhost`, `primary_dbport`, `replica_dbhost` and `replica_dbport`, each with the block's default and description |
| Scenarios.PrimaryPortDeclared | configs.go:20 | the primary port flag is `primary_dbport`, default 5432 |
| Scenarios.PrimaryHostDeclared | configs.go:15 | the primary host flag is `primary_dbhost`, default `localhost` |
| Scenarios.ReplicaHostDeclared | configs.go:15 | the replica host flag is `replica_dbhost`, default `localhost` |
| Scenarios.ReplicaPortDeclared | configs.go:20 | the replica port flag is `replica_dbport`, default 5432 |
| Scenarios.PrimaryReplicaValues | coil_test.go:147-191 | each copy reads its own host and port, so the two copies can hold different values |
| Scenarios.HostValues | coil_test.go:160-191 | the two hosts come from `primary_dbhost` and `replica_dbhost` |
| Scenarios.PortValues | configs.go:20 | the two ports come from `primary_dbport` and `replica_dbport` |
| Scenarios.DebugKindAndTagDisagree | configs.go:21 | `dbdebug` is declared as a string flag, because of its `type` tag, and assigned as a bool, because of its Go kind |
| Scenarios.DurationDeclaredNotAssigned | coil.go:121-125 | a duration leaf is declared as a duration flag, but the assignment pass neither reads nor writes it |

## Left out

- Viper and pflag parsing (`CreateViper`, `CreateViperWithFlagSet`, coil.go:249-289, main.go:116-135) are left out because they read the command line, the environment and a configuration file. The resolver they build is what the `Binder` parameter returns for the global flag set. Its key case-insensitivity and the upper-case environment mapping of `AutomaticEnv` are part of that parameter.
- A missing or unparsable configuration file makes `CreateViper` panic (coil.go:258-264); that is left out as file I/O.
- `HasConfig` (coil.go:31-46) and `getParser` (coil.go:26-28) are left out: they are reflection helpers outside both walks.
- Float parsing (`strconv.ParseFloat`), duration parsing (`time.ParseDuration`) and the rounding of a float64 to float32 are the `Numerics` parameter, because the model has no floating point.
- The body of a user's `Parse` method is left out; it is user code. The walk records the call as a hook event.
- Leaves.LeafValue, Leaves.LeafAssigned, Leaves.SetPropertiesIdempotent, Leaves.AssignStructIdempotent, Coil.SetPropertiesFills, Coil.NewConfigFills, Coil.NewConfigWithFlagSetFills and Legacy.NewConfigFills: every value and idempotence statement assumes that `Parse` hooks write nothing into the struct. A hook that derives or changes field values (coil.go:214-218, main.go:100-103) can make a leaf differ from the per-leaf rule and a second fill differ from the first.
- Coil.NewConfig, Coil.NewConfigWithFlagSet, Coil.NewConfigFills, Coil.NewConfigWithFlagSetFills, Legacy.NewConfig and Legacy.NewConfigFills: `generate` stores the parser in the embedded `Config.viper` before the fill (coil.go:57, main.go:36). The model records that store as the outcome's `parser`, the resolver bound to the final global set, which is the one the fill uses. The struct leaf that stands for `Config.viper` is returned unchanged, so the instance itself does not show the store.
- Binder: the parameter is a function of the global flag set alone. How viper weighs flags against the environment and the configuration file, and the command-line arguments themselves, are fixed inside it, so the model states which flags the resolver is bound to, not what values viper then chooses.
- The order in which `AddFlagSet` visits flags is left out. pflag visits them sorted by name, and the model uses declaration order. The names in a flag set are distinct, so the lookups are the same either way.
- Reflection panics are left out: unexported fields, a non-pointer argument, or a `Parse` method with a different signature.
- Go kinds other than string, bool, int, float32 and float64 are `OtherCell` and are never written; `int64` (and so `time.Duration`), `int32` and slices fall here, because coil.go:143-212 has no case for them.
- A `Parse` method promoted from an embedded struct is folded into the level's `hasParse` flag.
- A pointer-to-struct field is not entered. Its kind is `reflect.Ptr`, so neither pass enters it (coil.go:71, coil.go:143): the registration pass declares it like any other leaf when it carries a name and a known type tag (coil.go:85-126), and the assignment pass never writes it. It is an `OtherCell` leaf here.
- configs.go beyond the database block, and the test files, are not modelled; the scenarios use the fixtures only.

=== FILE: assignment.dfy ===
/**
  The assignment pass: `setPropertiesFromFlagsWithPrefix` (coil.go:138-219) and the older
  `setPropertiesFromFlags` (main.go:80-104). It walks the struct instance with the same
  prefixes as the registration pass, fills each leaf whose Go kind it has a case for from the
  resolver (or from the leaf's `default` tag), and calls a level's `Parse` hook once that
  level's fields are done. The result is the filled instance and the trace of resolver reads
  and hook calls.
 */
module Assignment {
  import opened Wrappers
  import opened Strconv
  import opened Schema
  import opened Naming
  import opened Registration

  /** The key a leaf is read under: composed in coil.go (157-160), the bare name in main.go (89-96). */
  function LeafKey(v: Version, prefix: string, name: string): string
  {
    match v
    case Current => ReadKey(prefix, name)
    case Legacy => name
  }

  /** The walker has a case for this kind and consults the resolver for it. */
  predicate Reads(v: Version, c: Cell)
  {
    match c
    case StrCell(_) => true
    case BoolCell(_) => true
    case IntCell(_) => true
    case Float32Cell(_) => v == Current
    case Float64Cell(_) => true
    case OtherCell(_, _) => false
  }

  /**
    The new value of one leaf read under `key`. Current walker (coil.go:156-211): a string
    takes the resolved text unless it is empty, then the `default` tag; bool, int and float
    take the resolved value when the key is set, else the parsed default, and an int or float
    whose default does not parse keeps its value. Older walker (main.go:88-96): the resolved
    value unconditionally, and float32 is never written.
   */
  function AssignCell(v: Version, c: Cell, tags: Tags, key: string, r: Resolver, num: Numerics): (c': Cell)
    ensures SameKind(c, c')
    ensures !Reads(v, c) ==> c' == c
  {
    match v
    case Current => (
      match c
      case StrCell(_) =>
        var val := r.getString(key);
        StrCell(if val == "" then tags.default else val)
      case BoolCell(_) =>
        BoolCell(if r.isSet(key) then r.getBool(key) else tags.default == "true")
      case IntCell(_) =>
        if r.isSet(key) then IntCell(r.getInt64(key))
        else (match ParseInt(tags.default)
          case Some(n) => IntCell(n)
          case None => c)
      case Float32Cell(_) =>
        if r.isSet(key) then Float32Cell(num.toFloat32(r.getFloat64(key)))
        else (match num.parseFloat32(tags.default)
          case Some(x) => Float32Cell(x)
          case None => c)
      case Float64Cell(_) =>
        if r.isSet(key) then Float64Cell(r.getFloat64(key))
        else (match num.parseFloat64(tags.default)
          case Some(x) => Float64Cell(x)
          case None => c)
      case OtherCell(_, _) => c)
    case Legacy => (
      match c
      case StrCell(_) => StrCell(r.getString(key))
      case BoolCell(_) => BoolCell(r.getBool(key))
      case IntCell(_) => IntCell(r.getInt64(key))
      case Float32Cell(_) => c
      case Float64Cell(_) => Float64Cell(r.getFloat64(key))
      case OtherCell(_, _) => c)
  }

  /**
    The fields `fs`, the first of which has index `base` in the struct at `path`. Every event
    belongs to one of these fields.
   */
  function AssignList(v: Version, fs: seq<Field>, base: nat, path: Path, prefix: string, r: Resolver, num: Numerics)
    : (res: Traced<seq<Field>>)
    ensures |res.value| == |fs|
    decreases fs
  {
    if |fs| == 0 then Traced([], [])
    else
      var first := AssignField(v, fs[0], path + [base], prefix, r, num);
      var rest := AssignList(v, fs[1..], base + 1, path, prefix, r, num);
      Traced([first.value] + rest.value, first.events + rest.events)
  }

  /** One field at `p`. */
  function AssignField(v: Version, f: Field, p: Path, prefix: string, r: Resolver, num: Numerics)
    : Traced<Field>
    decreases f
  {
    match f
    case Nested(tag, body) =>
      var inner := AssignStruct(v, body, p, EnterPrefix(v, prefix, tag), r, num);
      Traced(Nested(tag, inner.value), inner.events)
    case Leaf(tags, c) =>
      var key := LeafKey(v, prefix, tags.name);
      Traced(Leaf(tags, AssignCell(v, c, tags, key, r, num)), if Reads(v, c) then [Read(p, key)] else [])
  }

  /** One struct level at `path`: its fields, then its own hook when it has a `Parse` method. */
  function AssignStruct(v: Version, s: Struct, path: Path, prefix: string, r: Resolver, num: Numerics)
    : Traced<Struct>
    decreases s
  {
    var fields := AssignList(v, s.fields, 0, path, prefix, r, num);
    Traced(Struct(fields.value, s.hasParse), fields.events + if s.hasParse then [Hook(path)] else [])
  }

  /** `setPropertiesFromFlags`: the whole instance, from the root with no prefix. */
  function SetProperties(v: Version, s: Struct, r: Resolver, num: Numerics): Traced<Struct>
  {
    AssignStruct(v, s, [], "", r, num)
  }

  /** Every event of the fields `fs` belongs to one of them: it lies below index `base` to `base + |fs| - 1`. */
  lemma {:induction false} ListEventsWithin(v: Version, fs: seq<Field>, base: nat, path: Path, prefix: string,
                                            r: Resolver, num: Numerics)
    ensures forall e :: e in AssignList(v, fs, base, path, prefix, r, num).events ==>
      |path| < |e.path| && e.path[..|path|] == path && base <= e.path[|path|] < base + |fs|
    decreases fs
  {
    if |fs| > 0 {
      var first := AssignField(v, fs[0], path + [base], prefix, r, num);
      FieldEventsWithin(v, fs[0], path + [base], prefix, r, num);
      ListEventsWithin(v, fs[1..], base + 1, path, prefix, r, num);
      assert forall e :: e in first.events ==> e.path[..|path| + 1][..|path|] == e.path[..|path|];
    }
  }

  /** Every event of a field at `p` lies at or below `p`. */
  lemma {:induction false} FieldEventsWithin(v: Version, f: Field, p: Path, prefix: string,
                                             r: Resolver, num: Numerics)
    ensures forall e :: e in AssignField(v, f, p, prefix, r, num).events ==> |p| <= |e.path| && e.path[..|p|] == p
    decreases f
  {
    match f
    case Nested(tag, body) =>
      StructEventsWithin(v, body, p, EnterPrefix(v, prefix, tag), r, num);
    case Leaf(_, _) =>
  }

  /**
    Every event of a struct level lies at or below its path. Its own hook is the only event at
    the path itself: it is the last event, and it is there exactly when the level has a `Parse`
    method.
   */
  lemma {:induction false} StructEventsWithin(v: Version, s: Struct, path: Path, prefix: string,
                                              r: Resolver, num: Numerics)
    ensures var ev := AssignStruct(v, s, path, prefix, r, num).events;
      && (forall e :: e in ev ==> |path| <= |e.path| && e.path[..|path|] == path)
      && (forall i :: 0 <= i < |ev| && |ev[i].path| == |path| ==> i == |ev| - 1 && ev[i] == Hook(path))
      && (s.hasParse <==> |ev| > 0 && ev[|ev| - 1] == Hook(path))
    decreases s
  {
    ListEventsWithin(v, s.fields, 0, path, prefix, r, num);
  }

  /**
    The assignment pass writes leaf values only: every field keeps its tags, every nested
    struct its prefix and hook, and every leaf its Go kind.
   */
  lemma {:induction false} AssignStructShape(v: Version, s: Struct, path: Path, prefix: string,
                                             r: Resolver, num: Numerics)
    ensures SameShape(s, AssignStruct(v, s, path, prefix, r, num).value)
    decreases s
  {
    AssignListShape(v, s.fields, 0, path, prefix, r, num);
  }

  lemma {:induction false} AssignListShape(v: Version, fs: seq<Field>, base: nat, path: Path, prefix: string,
                                           r: Resolver, num: Numerics)
    ensures var out := AssignList(v, fs, base, path, prefix, r, num).value;
      forall i :: 0 <= i < |fs| ==> SameShapeField(fs[i], out[i])
    decreases fs
  {
    if |fs| > 0 {
      var first := AssignField(v, fs[0], path + [base], prefix, r, num);
      var rest := AssignList(v, fs[1..], base + 1, path, prefix, r, num);
      var out := AssignList(v, fs, base, path, prefix, r, num).value;
      assert out == [first.value] + rest.value;
      AssignFieldShape(v, fs[0], path + [base], prefix, r, num);
      AssignListShape(v, fs[1..], base + 1, path, prefix, r, num);
      forall i | 0 < i < |fs|
        ensures SameShapeField(fs[i], out[i])
      {
        assert fs[i] == fs[1..][i - 1] && out[i] == rest.value[i - 1];
      }
    }
  }

  lemma {:induction false} AssignFieldShape(v: Version, f: Field, p: Path, prefix: string,
                                            r: Resolver, num: Numerics)
    ensures SameShapeField(f, AssignField(v, f, p, prefix, r, num).value)
    decreases f
  {
    match f
    case Nested(tag, body) =>
      AssignStructShape(v, body, p, EnterPrefix(v, prefix, tag), r, num);
    case Leaf(_, _) =>
  }
}

=== FILE: coil.dfy ===
/**
  The constructors of coil.go (222-245): declare the struct's flags into a fresh local flag set
  (and merge it into the global command line unless asked not to) or into the caller's flag
  set, add the global `config` flag (`generate`, coil.go:50-58), then fill the instance from
  the resolver that `generate` builds over the global command line.
 */
module Coil {
  import opened Wrappers
  import opened Schema
  import opened Registration
  import opened Assignment
  import opened FlagSets
  import opened Hooks
  import opened Leaves

  /**
    `CreateViper` (coil.go:249-268): the resolver viper becomes once it has parsed the command
    line against the global flag set and bound every flag defined there. The command-line
    arguments, the environment and the configuration file are fixed inside the function; what
    varies between constructors is the flag set it is bound to.
   */
  type Binder = FlagSet -> Resolver

  /** The flag `generate` declares for the path of a configuration file. */
  const ConfigFlag := Decl("config", StringFlag(""), "Path for a configuration file to load")

  /**
    What a constructor leaves behind: the flag set the struct's flags went into, the global
    command line, the parser `generate` stores in the embedded `Config.viper` before the fill
    (coil.go:57, main.go:36), the filled instance and the trace of the assignment pass.
   */
  datatype Outcome = Outcome(declaredInto: FlagSet, global: FlagSet, parser: Resolver, config: Struct, events: seq<Event>)

  /** coil.go:50-58: `config` is added to the global command line unless it is already there. */
  function Generate(global: FlagSet): (g: FlagSet)
    ensures Lookup(g, "config").Some?
    ensures Lookup(global, "config").Some? ==> g == global
    ensures Lookup(global, "config").None? ==> g == global + [ConfigFlag]
  {
    AddFlagSetLookup(global, [ConfigFlag], "config");
    AddFlagSet(global, [ConfigFlag])
  }

  /** coil.go:225-229: the variadic `merge` argument, true when it is absent. */
  function ShouldMerge(merge: seq<bool>): bool
  {
    |merge| == 0 || merge[0]
  }

  /**
    `NewConfig(c, merge...)`: None when declaring the struct's flags into the fresh local set
    panics because two of them share a name. Otherwise the global set is the merged one plus
    `config`, and the instance is filled, and its hooks called, from the resolver bound to it.
   */
  function NewConfig(c: Struct, merge: seq<bool>, global: FlagSet, viper: Binder, num: Numerics): (o: Option<Outcome>)
    ensures o.Some? <==> DistinctNames(DefineFlags(Current, c, num))
    ensures o.Some? ==> o.value.declaredInto == DefineFlags(Current, c, num)
    ensures o.Some? ==> (o.value.global
                         == Generate(if ShouldMerge(merge) then AddFlagSet(global, DefineFlags(Current, c, num)) else global))
    ensures o.Some? ==> Lookup(o.value.global, "config").Some?
    ensures o.Some? ==> o.value.parser == viper(o.value.global)
    ensures o.Some? && ShouldMerge(merge) ==> forall d :: d in DefineFlags(Current, c, num) ==>
      Lookup(o.value.global, d.name).Some?
    ensures o.Some? ==> (Traced(o.value.config, o.value.events)
                         == SetProperties(Current, c, viper(o.value.global), num))
    ensures o.Some? ==> SameShape(c, o.value.config)
  {
    DeclareAllSucceeds([], DefineFlags(Current, c, num));
    assert [] + DefineFlags(Current, c, num) == DefineFlags(Current, c, num);
    match DeclareAll([], DefineFlags(Current, c, num))
    case None => None
    case Some(local) =>
      var merged := if ShouldMerge(merge) then AddFlagSet(global, local) else global;
      var filled := SetProperties(Current, c, viper(Generate(merged)), num);
      MergedFlagsDefined(global, local);
      AssignStructShape(Current, c, [], "", viper(Generate(merged)), num);
      Some(Outcome(local, Generate(merged), viper(Generate(merged)), filled.value, filled.events))
  }

  /** Every flag merged into the global set is still defined after `generate`. */
  lemma MergedFlagsDefined(global: FlagSet, local: FlagSet)
    ensures forall d :: d in local ==> Lookup(Generate(AddFlagSet(global, local)), d.name).Some?
  {
    var merged := AddFlagSet(global, local);
    var g := Generate(merged);
    forall d | d in local
      ensures Lookup(g, d.name).Some?
    {
      AddFlagSetLookup(global, local, d.name);
      AddFlagSetLookup(merged, [ConfigFlag], d.name);
    }
  }

  /**
    `NewConfigWithFlagSet(c, fs)`: the struct's flags are declared into the caller's set `fs`
    (None when a name is already there or repeats), never into the global command line, which
    gains only `config`; the instance is filled from the resolver bound to that global set.
   */
  function NewConfigWithFlagSet(c: Struct, fs: FlagSet, global: FlagSet, viper: Binder, num: Numerics)
    : (o: Option<Outcome>)
    ensures DistinctNames(fs) ==> (o.Some? <==> DistinctNames(fs + DefineFlags(Current, c, num)))
    ensures o.Some? ==> o.value.declaredInto == fs + DefineFlags(Current, c, num)
    ensures o.Some? ==> o.value.global == Generate(global)
    ensures o.Some? ==> o.value.parser == viper(o.value.global)
    ensures o.Some? ==> (Traced(o.value.config, o.value.events)
                         == SetProperties(Current, c, viper(o.value.global), num))
    ensures o.Some? ==> SameShape(c, o.value.config)
  {
    DeclareAllSucceeds(fs, DefineFlags(Current, c, num));
    match DeclareAll(fs, DefineFlags(Current, c, num))
    case None => None
    case Some(declared) =>
      var filled := SetProperties(Current, c, viper(Generate(global)), num);
      AssignStructShape(Current, c, [], "", viper(Generate(global)), num);
      Some(Outcome(declared, Generate(global), viper(Generate(global)), filled.value, filled.events))
  }

  /** Leaving out `merge` is the same as passing true; only the first value is looked at. */
  lemma MergeDefaultsToTrue(c: Struct, b: bool, rest: seq<bool>, global: FlagSet, viper: Binder, num: Numerics)
    ensures NewConfig(c, [], global, viper, num) == NewConfig(c, [true], global, viper, num)
    ensures NewConfig(c, [b] + rest, global, viper, num) == NewConfig(c, [b], global, viper, num)
  {
    assert ShouldMerge([]) == ShouldMerge([true]);
    assert ShouldMerge([b] + rest) == ShouldMerge([b]);
  }

  /**
    What a filled instance and its trace hold, leaf by leaf: each leaf the value the per-leaf
    rule takes from `r` under its key, one read at each leaf of a kind the walker reads and
    none elsewhere, and one call of each `Parse` hook.
   */
  predicate FilledFrom(v: Version, c: Struct, r: Resolver, num: Numerics, config: Struct, events: seq<Event>,
                       p: Path, key: string)
  {
    && (FieldAt(c, p).Some? && FieldAt(c, p).value.Leaf? ==>
          var f := FieldAt(c, p).value;
          FieldAt(config, p)
            == Some(Leaf(f.tags, AssignCell(v, f.cell, f.tags, LeafKey(v, PrefixAt(v, c, "", p), f.tags.name), r, num))))
    && multiset(events)[Read(p, key)] == (if ReadKeyAt(v, c, "", p) == Some(key) then 1 else 0)
    && multiset(events)[Hook(p)] == (if HookAt(c, p) then 1 else 0)
  }

  /** The assignment pass leaves a filled instance and trace. */
  lemma SetPropertiesFills(v: Version, c: Struct, r: Resolver, num: Numerics, p: Path, key: string)
    ensures var t := SetProperties(v, c, r, num);
      FilledFrom(v, c, r, num, t.value, t.events, p, key)
  {
    if FieldAt(c, p).Some? && FieldAt(c, p).value.Leaf? {
      LeafValue(v, c, r, num, p);
    }
    ReadsExact(v, c, r, num, p, key);
    HookOnce(v, c, r, num, p);
  }

  /**
    coil.go:222-236: the instance `NewConfig` returns holds at every leaf the value taken from
    the resolver bound to the final global flag set; that resolver is consulted at exactly the
    leaves of a kind the walker reads, and every `Parse` hook runs exactly once.
   */
  lemma NewConfigFills(c: Struct, merge: seq<bool>, global: FlagSet, viper: Binder, num: Numerics, p: Path, key: string)
    requires NewConfig(c, merge, global, viper, num).Some?
    ensures var o := NewConfig(c, merge, global, viper, num).value;
      FilledFrom(Current, c, viper(o.global), num, o.config, o.events, p, key)
  {
    SetPropertiesFills(Current, c, viper(NewConfig(c, merge, global, viper, num).value.global), num, p, key);
  }

  /** coil.go:240-245: the same for `NewConfigWithFlagSet`. */
  lemma NewConfigWithFlagSetFills(c: Struct, fs: FlagSet, global: FlagSet, viper: Binder, num: Numerics,
                                  p: Path, key: string)
    requires NewConfigWithFlagSet(c, fs, global, viper, num).Some?
    ensures var o := NewConfigWithFlagSet(c, fs, global, viper, num).value;
      FilledFrom(Current, c, viper(o.global), num, o.config, o.events, p, key)
  {
    SetPropertiesFills(Current, c, viper(Generate(global)), num, p, key);
  }

  /** Two different accepted leaves of `c` end up with the same qualified name. */
  ghost predicate NameClash(c: Struct, num: Numerics)
  {
    exists p, q :: p != q && DeclaredAt(Current, c, "", p, num).Some? && DeclaredAt(Current, c, "", q, num).Some?
      && DeclaredAt(Current, c, "", p, num).value.name == DeclaredAt(Current, c, "", q, num).value.name
  }

  lemma RepeatedNameIsClash(c: Struct, num: Numerics)
    requires !DistinctNames(DefineFlags(Current, c, num))
    ensures NameClash(c, num)
  {
    var ps, ds := AcceptedPaths(Current, c, num), DefineFlags(Current, c, num);
    RegistrationExact(Current, c, num);
    var i, j :| 0 <= i < j < |ds| && ds[i].name == ds[j].name;
    PathBeforeIrreflexive(ps[i]);
    assert DeclaredAt(Current, c, "", ps[i], num) == Some(ds[i]);
    assert DeclaredAt(Current, c, "", ps[j], num) == Some(ds[j]);
  }

  lemma ClashIsRepeatedName(c: Struct, num: Numerics)
    requires NameClash(c, num)
    ensures !DistinctNames(DefineFlags(Current, c, num))
  {
    var ds := DefineFlags(Current, c, num);
    var p, q :| p != q && DeclaredAt(Current, c, "", p, num).Some? && DeclaredAt(Current, c, "", q, num).Some?
      && DeclaredAt(Current, c, "", p, num).value.name == DeclaredAt(Current, c, "", q, num).value.name;
    var i := IndexOfAccepted(Current, c, num, p);
    var j := IndexOfAccepted(Current, c, num, q);
    assert i != j && ds[i].name == ds[j].name;
  }

  /**
    `NewConfig` fails exactly when two different accepted leaves end up with the same
    qualified name, wherever they sit in the struct.
   */
  lemma NewConfigFailsOnClash(c: Struct, merge: seq<bool>, global: FlagSet, viper: Binder, num: Numerics)
    ensures NewConfig(c, merge, global, viper, num).None? <==>
      exists p, q :: p != q && DeclaredAt(Current, c, "", p, num).Some? && DeclaredAt(Current, c, "", q, num).Some?
        && DeclaredAt(Current, c, "", p, num).value.name == DeclaredAt(Current, c, "", q, num).value.name
  {
    if DistinctNames(DefineFlags(Current, c, num)) {
      if NameClash(c, num) {
        ClashIsRepeatedName(c, num);
      }
    } else {
      RepeatedNameIsClash(c, num);
    }
  }

  /**
    coil.go:240-245 against 222-236 with `merge` false: the caller's flag set only receives
    declarations, and in both cases the global set the resolver is bound to is the given one
    plus `config`. So the two constructors fill the instance and call the hooks identically.
   */
  lemma FlagSetVariantSameConfig(c: Struct, fs: FlagSet, global: FlagSet, viper: Binder, num: Numerics)
    ensures var a, b := NewConfigWithFlagSet(c, fs, global, viper, num), NewConfig(c, [false], global, viper, num);
      a.Some? && b.Some? ==>
        && a.value.global == b.value.global
        && a.value.config == b.value.config
        && a.value.events == b.value.events
  {
  }

  /**
    coil.go:230-232 and 254: only a merged struct flag reaches the global set the resolver is
    bound to. A struct flag the global set does not define yet, other than `config`, is bound
    with the default merge and is not bound for `NewConfig(c, false)` or
    `NewConfigWithFlagSet`, so a value given for it on the command line reaches the instance
    only in the first case.
   */
  lemma MergeDecidesBinding(c: Struct, fs: FlagSet, global: FlagSet, viper: Binder, num: Numerics, d: Decl)
    requires d in DefineFlags(Current, c, num) && d.name != "config" && Lookup(global, d.name).None?
    ensures NewConfig(c, [], global, viper, num).Some? ==>
      Lookup(NewConfig(c, [], global, viper, num).value.global, d.name).Some?
    ensures NewConfig(c, [false], global, viper, num).Some? ==>
      Lookup(NewConfig(c, [false], global, viper, num).value.global, d.name).None?
    ensures NewConfigWithFlagSet(c, fs, global, viper, num).Some? ==>
      Lookup(NewConfigWithFlagSet(c, fs, global, viper, num).value.global, d.name).None?
  {
    AddFlagSetLookup(global, [ConfigFlag], d.name);
  }

  /**
    With the default merge, a struct flag the global command line already defines keeps the
    global definition; the local one is dropped silently.
   */
  lemma MergeKeepsExistingGlobal(c: Struct, global: FlagSet, viper: Binder, num: Numerics, name: string)
    requires NewConfig(c, [], global, viper, num).Some?
    requires Lookup(global, name).Some?
    ensures Lookup(NewConfig(c, [], global, viper, num).value.global, name) == Lookup(global, name)
  {
    var local := DefineFlags(Current, c, num);
    var merged := AddFlagSet(global, local);
    AddFlagSetLookup(global, local, name);
    AddFlagSetLookup(merged, [ConfigFlag], name);
  }
}

=== FILE: flagsets.dfy ===
/**
  The part of pflag's flag set the constructors rely on: declaring a flag (which panics when
  the name is already defined), looking a name up, and `AddFlagSet`, which copies over only
  the flags whose names are not yet defined. A flag set is the sequence of its declarations.
 */
module FlagSets {
  import opened Wrappers
  import opened Schema

  type FlagSet = seq<Decl>

  /** No two declarations share a name: the invariant pflag keeps by panicking. */
  predicate DistinctNames(fs: FlagSet)
  {
    forall i, j :: 0 <= i < j < |fs| ==> fs[i].name != fs[j].name
  }

  /** `Lookup`: the declaration of `name`, the first one if several. */
  function Lookup(fs: FlagSet, name: string): (d: Option<Decl>)
    ensures d.Some? ==> d.value in fs && d.value.name == name
    ensures d.None? <==> forall i :: 0 <= i < |fs| ==> fs[i].name != name
  {
    if |fs| == 0 then None
    else if fs[0].name == name then Some(fs[0])
    else Lookup(fs[1..], name)
  }

  /**
    Declaring the flags `ds` one after the other (`fs.String`, `fs.Int64`, ...): None stands
    for the panic pflag raises when a name is defined a second time.
   */
  function DeclareAll(fs: FlagSet, ds: seq<Decl>): (out: Option<FlagSet>)
    ensures out.Some? ==> out.value == fs + ds
    decreases |ds|
  {
    if |ds| == 0 then Some(fs)
    else if Lookup(fs, ds[0].name).Some? then None
    else DeclareAll(fs + [ds[0]], ds[1..])
  }

  /** Declaring into a consistent flag set succeeds exactly when no name ends up defined twice. */
  lemma {:induction false} DeclareAllSucceeds(fs: FlagSet, ds: seq<Decl>)
    ensures DistinctNames(fs) ==> (DeclareAll(fs, ds).Some? <==> DistinctNames(fs + ds))
    decreases |ds|
  {
    if DistinctNames(fs) && |ds| > 0 {
      var d := ds[0];
      assert (fs + [d]) + ds[1..] == fs + ds;
      if Lookup(fs, d.name).Some? {
        var i :| 0 <= i < |fs| && fs[i].name == d.name;
        assert (fs + ds)[i] == fs[i] && (fs + ds)[|fs|] == d;
      } else {
        assert DistinctNames(fs + [d]);
        DeclareAllSucceeds(fs + [d], ds[1..]);
      }
    } else if |ds| == 0 {
      assert fs + ds == fs;
    }
  }

  /**
    `AddFlagSet`: every flag of `add` whose name `fs` does not define yet is appended; the
    flags already in `fs` are kept as they are.
   */
  function AddFlagSet(fs: FlagSet, add: FlagSet): (out: FlagSet)
    ensures |fs| <= |out| && out[..|fs|] == fs
    ensures forall i :: |fs| <= i < |out| ==> out[i] in add
    decreases |add|
  {
    if |add| == 0 then fs
    else
      var next := if Lookup(fs, add[0].name).Some? then fs else fs + [add[0]];
      var out := AddFlagSet(next, add[1..]);
      assert out[..|next|] == next;
      assert out[..|fs|] == next[..|fs|];
      out
  }

  /**
    After `AddFlagSet`, a name resolves to the flag `fs` already had for it and otherwise to the
    flag `add` has for it: nothing already defined is replaced, and nothing of `add` is lost.
   */
  lemma {:induction false} AddFlagSetLookup(fs: FlagSet, add: FlagSet, name: string)
    ensures Lookup(AddFlagSet(fs, add), name)
         == if Lookup(fs, name).Some? then Lookup(fs, name) else Lookup(add, name)
    decreases |add|
  {
    if |add| > 0 {
      var d := add[0];
      var next := if Lookup(fs, d.name).Some? then fs else fs + [d];
      AddFlagSetLookup(next, add[1..], name);
      LookupSnoc(fs, d, name);
    }
  }

  /** Appending a flag changes the lookup of its own name only, and only if it was undefined. */
  lemma {:induction false} LookupSnoc(fs: FlagSet, d: Decl, name: string)
    ensures Lookup(fs + [d], name) == if Lookup(fs, name).Some? then Lookup(fs, name)
                                       else if d.name == name then Some(d) else None
    decreases |fs|
  {
    if |fs| > 0 {
      assert (fs + [d])[1..] == fs[1..] + [d];
      LookupSnoc(fs[1..], d, name);
    }
  }

  /** `AddFlagSet` keeps a consistent flag set consistent. */
  lemma {:induction false} AddFlagSetDistinct(fs: FlagSet, add: FlagSet)
    requires DistinctNames(fs)
    ensures DistinctNames(AddFlagSet(fs, add))
    decreases |add|
  {
    if |add| > 0 {
      var d := add[0];
      if Lookup(fs, d.name).None? {
        assert DistinctNames(fs + [d]);
        AddFlagSetDistinct(fs + [d], add[1..]);
      } else {
        AddFlagSetDistinct(fs, add[1..]);
      }
    }
  }
}

=== FILE: hooks.dfy ===
/**
  The `Parse` hook (coil.go:214-218, main.go:99-103): after a struct level's fields are
  assigned, the walker looks the method up on the level's pointer and, if it exists, calls it
  with the resolver. Here the call is a `Hook(path)` event in the trace; what the user's hook
  does is not part of the walker.
 */
module Hooks {
  import opened Wrappers
  import opened Schema
  import opened Registration
  import opened Assignment

  /** After the hook of a level, nothing happens at or below that level any more. */
  predicate HooksLast(ev: seq<Event>)
  {
    forall i, j :: 0 <= i < j < |ev| && ev[i].Hook? ==> !(ev[i].path <= ev[j].path)
  }

  lemma HooksLastAppend(a: seq<Event>, b: seq<Event>)
    requires HooksLast(a) && HooksLast(b)
    requires forall i, j :: 0 <= i < |a| && 0 <= j < |b| && a[i].Hook? ==> !(a[i].path <= b[j].path)
    ensures HooksLast(a + b)
  {
    var ab := a + b;
    forall i, j | 0 <= i < j < |ab| && ab[i].Hook?
      ensures !(ab[i].path <= ab[j].path)
    {
      if j < |a| {
        assert ab[i] == a[i] && ab[j] == a[j];
      } else if i < |a| {
        assert ab[i] == a[i] && ab[j] == b[j - |a|];
      } else {
        assert ab[i] == b[i - |a|] && ab[j] == b[j - |a|];
      }
    }
  }

  lemma {:induction false} HookOrderList(v: Version, fs: seq<Field>, base: nat, path: Path, prefix: string,
                                         r: Resolver, num: Numerics)
    ensures HooksLast(AssignList(v, fs, base, path, prefix, r, num).events)
    decreases fs
  {
    if |fs| > 0 {
      var first := AssignField(v, fs[0], path + [base], prefix, r, num);
      var rest := AssignList(v, fs[1..], base + 1, path, prefix, r, num);
      HookOrderField(v, fs[0], path + [base], prefix, r, num);
      HookOrderList(v, fs[1..], base + 1, path, prefix, r, num);
      FieldEventsWithin(v, fs[0], path + [base], prefix, r, num);
      ListEventsWithin(v, fs[1..], base + 1, path, prefix, r, num);
      forall i, j | 0 <= i < |first.events| && 0 <= j < |rest.events| && first.events[i].Hook?
        ensures !(first.events[i].path <= rest.events[j].path)
      {
        var a := first.events[i].path;
        var b := rest.events[j].path;
        assert first.events[i] in first.events;
        assert rest.events[j] in rest.events;
        assert a[..|path| + 1] == path + [base];
        assert a[|path|] == base;
      }
      HooksLastAppend(first.events, rest.events);
    }
  }

  lemma {:induction false} HookOrderField(v: Version, f: Field, p: Path, prefix: string, r: Resolver, num: Numerics)
    ensures HooksLast(AssignField(v, f, p, prefix, r, num).events)
    decreases f
  {
    match f
    case Nested(tag, body) =>
      HookOrderStruct(v, body, p, EnterPrefix(v, prefix, tag), r, num);
    case Leaf(_, _) =>
  }

  lemma {:induction false} HookOrderStruct(v: Version, s: Struct, path: Path, prefix: string, r: Resolver, num: Numerics)
    ensures HooksLast(AssignStruct(v, s, path, prefix, r, num).events)
    decreases s
  {
    var fields := AssignList(v, s.fields, 0, path, prefix, r, num);
    HookOrderList(v, s.fields, 0, path, prefix, r, num);
    ListEventsWithin(v, s.fields, 0, path, prefix, r, num);
    if s.hasParse {
      forall i, j | 0 <= i < |fields.events| && 0 <= j < 1 && fields.events[i].Hook?
        ensures !(fields.events[i].path <= [Hook(path)][j].path)
      {
        assert fields.events[i] in fields.events;
      }
      HooksLastAppend(fields.events, [Hook(path)]);
    } else {
      assert fields.events + [] == fields.events;
    }
  }

  /**
    Hooks fire bottom-up: once the hook of the level at `p` has run, no later event (no
    resolver read of a leaf below `p`, no hook of a level below `p`) lies at or below `p`.
   */
  lemma HookAfterLevel(v: Version, s: Struct, r: Resolver, num: Numerics)
    ensures var ev := SetProperties(v, s, r, num).events;
      forall i, j :: 0 <= i < j < |ev| && ev[i].Hook? ==> !(ev[i].path <= ev[j].path)
  {
    HookOrderStruct(v, s, [], "", r, num);
  }

  /** No event occurs twice in a trace. */
  predicate NoRepeats(ev: seq<Event>)
  {
    forall i, j :: 0 <= i < j < |ev| ==> ev[i] != ev[j]
  }

  /** In a trace without repeats an event is counted once when it occurs and never otherwise. */
  lemma {:induction false} CountNoRepeats(ev: seq<Event>, e: Event)
    requires NoRepeats(ev)
    ensures multiset(ev)[e] == if e in ev then 1 else 0
    decreases |ev|
  {
    if |ev| > 0 {
      var tail := ev[1..];
      assert ev == [ev[0]] + tail;
      forall i, j | 0 <= i < j < |tail|
        ensures tail[i] != tail[j]
      {
        assert tail[i] == ev[i + 1] && tail[j] == ev[j + 1];
      }
      CountNoRepeats(tail, e);
      if e == ev[0] {
        forall k | 0 <= k < |tail|
          ensures tail[k] != e
        {
          assert tail[k] == ev[k + 1];
        }
      }
    }
  }

  lemma NoRepeatsAppend(a: seq<Event>, b: seq<Event>)
    requires NoRepeats(a) && NoRepeats(b)
    requires forall e :: e in a ==> e !in b
    ensures NoRepeats(a + b)
  {
    forall i, j | 0 <= i < j < |a + b|
      ensures (a + b)[i] != (a + b)[j]
    {
      if i >= |a| {
        assert (a + b)[i] == b[i - |a|] && (a + b)[j] == b[j - |a|];
      } else if j >= |a| {
        assert (a + b)[i] == a[i] && (a + b)[j] == b[j - |a|];
        assert a[i] in a;
      }
    }
  }

  /** The traces of the fields of a list never share an event, and none repeats one. */
  lemma {:induction false} ListNoRepeats(v: Version, fs: seq<Field>, base: nat, path: Path, prefix: string,
                                         r: Resolver, num: Numerics)
    ensures NoRepeats(AssignList(v, fs, base, path, prefix, r, num).events)
    decreases fs
  {
    if |fs| > 0 {
      var first := AssignField(v, fs[0], path + [base], prefix, r, num).events;
      var rest := AssignList(v, fs[1..], base + 1, path, prefix, r, num).events;
      ListEvents(v, fs, base, path, prefix, r, num);
      FieldNoRepeats(v, fs[0], path + [base], prefix, r, num);
      ListNoRepeats(v, fs[1..], base + 1, path, prefix, r, num);
      FieldEventsWithin(v, fs[0], path + [base], prefix, r, num);
      ListEventsWithin(v, fs[1..], base + 1, path, prefix, r, num);
      forall e | e in first
        ensures e !in rest
      {
        assert e.path[..|path| + 1] == path + [base];
        assert e.path[|path|] == (path + [base])[|path|] == base;
      }
      NoRepeatsAppend(first, rest);
    }
  }

  lemma {:induction false} FieldNoRepeats(v: Version, f: Field, p: Path, prefix: string,
                                          r: Resolver, num: Numerics)
    ensures NoRepeats(AssignField(v, f, p, prefix, r, num).events)
    decreases f
  {
    match f
    case Nested(tag, body) =>
      StructNoRepeats(v, body, p, EnterPrefix(v, prefix, tag), r, num);
    case Leaf(_, _) =>
  }

  lemma {:induction false} StructNoRepeats(v: Version, s: Struct, path: Path, prefix: string,
                                           r: Resolver, num: Numerics)
    ensures NoRepeats(AssignStruct(v, s, path, prefix, r, num).events)
    decreases s
  {
    var fields := AssignList(v, s.fields, 0, path, prefix, r, num).events;
    var tail := if s.hasParse then [Hook(path)] else [];
    assert AssignStruct(v, s, path, prefix, r, num).events == fields + tail;
    ListNoRepeats(v, s.fields, 0, path, prefix, r, num);
    ListEventsWithin(v, s.fields, 0, path, prefix, r, num);
    NoRepeatsAppend(fields, tail);
  }

  /**
    No event of the assignment pass repeats: each leaf is read at most once, since one `Read`
    stands for a leaf's lookups, and each hook runs at most once.
   */
  lemma TraceNoRepeats(v: Version, s: Struct, r: Resolver, num: Numerics)
    ensures NoRepeats(SetProperties(v, s, r, num).events)
  {
    StructNoRepeats(v, s, [], "", r, num);
  }

  /** The field at index `j` of `fs` is a nested struct with a hooked level at `rel` below it. */
  predicate ChildHook(fs: seq<Field>, j: nat, rel: Path)
  {
    j < |fs| && fs[j].Nested? && HookAt(fs[j].body, rel)
  }

  lemma ChildHookShift(fs: seq<Field>, base: nat, k: nat, rel: Path)
    requires |fs| > 0
    ensures (base + 1 <= k && ChildHook(fs[1..], k - (base + 1), rel))
         == (base <= k && k != base && ChildHook(fs, k - base, rel))
  {
    if base < k && k - base < |fs| {
      assert fs[1..][k - (base + 1)] == fs[k - base];
    }
  }

  /** The events of a non-empty field list are those of its first field, then the rest. */
  lemma ListEvents(v: Version, fs: seq<Field>, base: nat, path: Path, prefix: string,
                   r: Resolver, num: Numerics)
    requires |fs| > 0
    ensures AssignList(v, fs, base, path, prefix, r, num).events
         == AssignField(v, fs[0], path + [base], prefix, r, num).events
            + AssignList(v, fs[1..], base + 1, path, prefix, r, num).events
  {
  }

  /** Events of the fields after index `base` are never at index `base`. */
  lemma NotInRest(v: Version, fs: seq<Field>, base: nat, path: Path, prefix: string,
                  r: Resolver, num: Numerics, e: Event)
    requires |fs| > 0
    requires |path| < |e.path| && e.path[|path|] == base
    ensures e !in AssignList(v, fs[1..], base + 1, path, prefix, r, num).events
  {
    ListEventsWithin(v, fs[1..], base + 1, path, prefix, r, num);
  }

  /** Events of the field at index `base` are always at index `base`. */
  lemma NotInFirst(v: Version, fs: seq<Field>, base: nat, path: Path, prefix: string,
                   r: Resolver, num: Numerics, e: Event)
    requires |fs| > 0
    requires |path| < |e.path| && e.path[|path|] != base
    ensures e !in AssignField(v, fs[0], path + [base], prefix, r, num).events
  {
    FieldEventsWithin(v, fs[0], path + [base], prefix, r, num);
  }

  /** Only the events of the field at index `k` can be at or below the path of that field. */
  lemma {:induction false} HookCountList(v: Version, fs: seq<Field>, base: nat, path: Path, prefix: string,
                                         r: Resolver, num: Numerics, k: nat, rel: Path)
    ensures multiset(AssignList(v, fs, base, path, prefix, r, num).events)[Hook(path + [k] + rel)]
         == if base <= k && ChildHook(fs, k - base, rel) then 1 else 0
    decreases fs, 1
  {
    if |fs| == 0 {
      assert AssignList(v, fs, base, path, prefix, r, num).events == [];
    } else if k == base {
      HookCountHere(v, fs, base, path, prefix, r, num, rel);
    } else {
      HookCountNext(v, fs, base, path, prefix, r, num, k, rel);
    }
  }

  /** A hook at another index than `base` is counted among the rest of the fields. */
  lemma {:induction false} HookCountNext(v: Version, fs: seq<Field>, base: nat, path: Path, prefix: string,
                                         r: Resolver, num: Numerics, k: nat, rel: Path)
    requires |fs| > 0 && k != base
    ensures multiset(AssignList(v, fs, base, path, prefix, r, num).events)[Hook(path + [k] + rel)]
         == if base <= k && ChildHook(fs, k - base, rel) then 1 else 0
    decreases fs, 0
  {
    HookCountLater(v, fs, base, path, prefix, r, num, k, rel);
    HookCountList(v, fs[1..], base + 1, path, prefix, r, num, k, rel);
    ChildHookShift(fs, base, k, rel);
  }

  lemma {:induction false} HookCountHere(v: Version, fs: seq<Field>, base: nat, path: Path, prefix: string,
                                         r: Resolver, num: Numerics, rel: Path)
    requires |fs| > 0
    ensures multiset(AssignList(v, fs, base, path, prefix, r, num).events)[Hook(path + [base] + rel)]
         == if fs[0].Nested? && HookAt(fs[0].body, rel) then 1 else 0
    decreases fs, 0
  {
    var h := Hook(path + [base] + rel);
    assert h.path[|path|] == base;
    ListEvents(v, fs, base, path, prefix, r, num);
    NotInRest(v, fs, base, path, prefix, r, num, h);
    HookCountFirst(v, fs[0], base, path, prefix, r, num, rel);
  }

  lemma {:induction false} HookCountLater(v: Version, fs: seq<Field>, base: nat, path: Path, prefix: string,
                                          r: Resolver, num: Numerics, k: nat, rel: Path)
    requires |fs| > 0 && k != base
    ensures multiset(AssignList(v, fs, base, path, prefix, r, num).events)[Hook(path + [k] + rel)]
         == multiset(AssignList(v, fs[1..], base + 1, path, prefix, r, num).events)[Hook(path + [k] + rel)]
  {
    var h := Hook(path + [k] + rel);
    assert h.path[|path|] == k;
    ListEvents(v, fs, base, path, prefix, r, num);
    NotInFirst(v, fs, base, path, prefix, r, num, h);
  }

  lemma HookCountFirst(v: Version, f: Field, base: nat, path: Path, prefix: string,
                       r: Resolver, num: Numerics, rel: Path)
    ensures multiset(AssignField(v, f, path + [base], prefix, r, num).events)[Hook(path + [base] + rel)]
         == if f.Nested? && HookAt(f.body, rel) then 1 else 0
    decreases f, 0
  {
    match f
    case Nested(tag, body) =>
      HookCountStruct(v, body, path + [base], EnterPrefix(v, prefix, tag), r, num, rel);
    case Leaf(tags, c) =>
      var ev := AssignField(v, f, path + [base], prefix, r, num).events;
      assert forall e :: e in ev ==> e.Read?;
  }

  /** A struct's events are its fields' events, then its own hook when it has one. */
  lemma StructCount(v: Version, s: Struct, path: Path, prefix: string,
                    r: Resolver, num: Numerics, h: Event)
    ensures multiset(AssignStruct(v, s, path, prefix, r, num).events)[h]
         == multiset(AssignList(v, s.fields, 0, path, prefix, r, num).events)[h]
            + (if s.hasParse && h == Hook(path) then 1 else 0)
  {
    var fields := AssignList(v, s.fields, 0, path, prefix, r, num);
    var tail := if s.hasParse then [Hook(path)] else [];
    assert AssignStruct(v, s, path, prefix, r, num).events == fields.events + tail;
  }

  /** The hook of a level itself runs once when the level has a hook. */
  lemma OwnHookCount(v: Version, s: Struct, path: Path, prefix: string, r: Resolver, num: Numerics)
    ensures multiset(AssignStruct(v, s, path, prefix, r, num).events)[Hook(path)]
         == if s.hasParse then 1 else 0
  {
    StructCount(v, s, path, prefix, r, num, Hook(path));
    ListEventsWithin(v, s.fields, 0, path, prefix, r, num);
    assert Hook(path) !in AssignList(v, s.fields, 0, path, prefix, r, num).events;
  }

  /** Below its own path, a struct's events are those of its fields. */
  lemma BelowCount(v: Version, s: Struct, path: Path, prefix: string,
                   r: Resolver, num: Numerics, k: nat, q: Path)
    ensures multiset(AssignStruct(v, s, path, prefix, r, num).events)[Hook(path + [k] + q)]
         == multiset(AssignList(v, s.fields, 0, path, prefix, r, num).events)[Hook(path + [k] + q)]
  {
    StructCount(v, s, path, prefix, r, num, Hook(path + [k] + q));
    assert |path + [k] + q| > |path|;
  }

  lemma ChildHookIsHookAt(s: Struct, k: nat, q: Path)
    ensures (0 <= k && ChildHook(s.fields, k - 0, q)) == HookAt(s, [k] + q)
  {
    LevelStep(s, k, q);
  }

  lemma {:induction false} HookCountStruct(v: Version, s: Struct, path: Path, prefix: string,
                                           r: Resolver, num: Numerics, rel: Path)
    ensures multiset(AssignStruct(v, s, path, prefix, r, num).events)[Hook(path + rel)]
         == if HookAt(s, rel) then 1 else 0
    decreases s
  {
    if |rel| == 0 {
      assert path + rel == path;
      OwnHookCount(v, s, path, prefix, r, num);
    } else {
      var k := rel[0];
      var q := rel[1..];
      assert rel == [k] + q;
      assert path + rel == path + [k] + q;
      BelowCount(v, s, path, prefix, r, num, k, q);
      HookCountList(v, s.fields, 0, path, prefix, r, num, k, q);
      ChildHookIsHookAt(s, k, q);
    }
  }

  /** The hook of every level that has one runs exactly once, and no other hook runs. */
  lemma HookOnce(v: Version, s: Struct, r: Resolver, num: Numerics, p: Path)
    ensures multiset(SetProperties(v, s, r, num).events)[Hook(p)] == if HookAt(s, p) then 1 else 0
  {
    HookCountStruct(v, s, [], "", r, num, p);
    assert [] + p == p;
  }
}

=== FILE: leaves.dfy ===
/**
  The assignment pass leaf by leaf: which value ends up at each path of the instance, which
  resolver key is consulted for it, and how those keys relate to the flag names the
  registration pass declared.
 */
module Leaves {
  import opened Wrappers
  import opened Strconv
  import opened Schema
  import opened Naming
  import opened Registration
  import opened Assignment
  import opened Hooks
  import opened Values

  /** The key the walker reads for the leaf at `p`, if it is a leaf of a kind it reads. */
  function ReadKeyAt(v: Version, s: Struct, prefix: string, p: Path): Option<string>
  {
    match FieldAt(s, p)
    case Some(Leaf(tags, c)) =>
      if Reads(v, c) then Some(LeafKey(v, PrefixAt(v, s, prefix, p), tags.name)) else None
    case _ => None
  }

  /** The fields of a non-empty list after assignment: the first field's, then the rest's. */
  lemma ListValues(v: Version, fs: seq<Field>, base: nat, path: Path, prefix: string, r: Resolver, num: Numerics)
    requires |fs| > 0
    ensures AssignList(v, fs, base, path, prefix, r, num).value
         == [AssignField(v, fs[0], path + [base], prefix, r, num).value]
            + AssignList(v, fs[1..], base + 1, path, prefix, r, num).value
  {
  }

  /** The field at absolute index `i` of a field list after assignment. */
  lemma {:induction false} AssignListAt(v: Version, fs: seq<Field>, base: nat, path: Path, prefix: string,
                                        r: Resolver, num: Numerics, i: nat)
    requires base <= i < base + |fs|
    ensures AssignList(v, fs, base, path, prefix, r, num).value[i - base]
         == AssignField(v, fs[i - base], path + [i], prefix, r, num).value
    decreases fs, 1
  {
    if i == base {
      ListValues(v, fs, base, path, prefix, r, num);
    } else {
      AssignListAtLater(v, fs, base, path, prefix, r, num, i);
    }
  }

  lemma {:induction false} AssignListAtLater(v: Version, fs: seq<Field>, base: nat, path: Path, prefix: string,
                                             r: Resolver, num: Numerics, i: nat)
    requires base < i < base + |fs|
    ensures AssignList(v, fs, base, path, prefix, r, num).value[i - base]
         == AssignField(v, fs[i - base], path + [i], prefix, r, num).value
    decreases fs, 0
  {
    var rest := AssignList(v, fs[1..], base + 1, path, prefix, r, num).value;
    ListValues(v, fs, base, path, prefix, r, num);
    assert AssignList(v, fs, base, path, prefix, r, num).value[i - base] == rest[i - (base + 1)];
    AssignListAt(v, fs[1..], base + 1, path, prefix, r, num, i);
    assert fs[1..][i - (base + 1)] == fs[i - base];
  }

  /** Descending into the field at index `k` of a struct after assignment. */
  lemma AssignStructAt(v: Version, s: Struct, path: Path, prefix: string, r: Resolver, num: Numerics, k: nat)
    requires k < |s.fields|
    ensures |AssignStruct(v, s, path, prefix, r, num).value.fields| == |s.fields|
    ensures AssignStruct(v, s, path, prefix, r, num).value.fields[k]
         == AssignField(v, s.fields[k], path + [k], prefix, r, num).value
  {
    AssignListAt(v, s.fields, 0, path, prefix, r, num, k);
  }

  /** The prefix at a direct field of a struct is the ambient prefix. */
  lemma PrefixAtTop(v: Version, s: Struct, ambient: string, k: nat)
    ensures PrefixAt(v, s, ambient, [k]) == ambient
  {
    assert ChainAt(s, [k]) == [];
  }

  /**
    Every leaf ends up holding exactly the value the per-leaf rule computes from its old value,
    its tags and the key its path's prefixes give it; its tags are kept.
   */
  lemma {:induction false} LeafAssigned(v: Version, s: Struct, path: Path, prefix: string,
                                        r: Resolver, num: Numerics, p: Path)
    requires FieldAt(s, p).Some? && FieldAt(s, p).value.Leaf?
    ensures var f := FieldAt(s, p).value;
      FieldAt(AssignStruct(v, s, path, prefix, r, num).value, p)
        == Some(Leaf(f.tags, AssignCell(v, f.cell, f.tags, LeafKey(v, PrefixAt(v, s, prefix, p), f.tags.name), r, num)))
    decreases s
  {
    var k := p[0];
    AssignStructAt(v, s, path, prefix, r, num, k);
    if |p| == 1 {
      PrefixAtTop(v, s, prefix, k);
    } else {
      var q := p[1..];
      assert p == [k] + q;
      var f := s.fields[k];
      StepInto(v, s, prefix, k, q, num);
      LeafAssigned(v, f.body, path + [k], EnterPrefix(v, prefix, f.prefix), r, num, q);
    }
  }

  /** The whole-instance form: the leaf at `p` after `setPropertiesFromFlags`. */
  lemma LeafValue(v: Version, s: Struct, r: Resolver, num: Numerics, p: Path)
    requires FieldAt(s, p).Some? && FieldAt(s, p).value.Leaf?
    ensures var f := FieldAt(s, p).value;
      FieldAt(SetProperties(v, s, r, num).value, p)
        == Some(Leaf(f.tags, AssignCell(v, f.cell, f.tags, LeafKey(v, PrefixAt(v, s, "", p), f.tags.name), r, num)))
  {
    LeafAssigned(v, s, [], "", r, num, p);
  }

  /** A leaf of a kind the walker has no case for is left exactly as it was. */
  lemma OtherKindsUntouched(v: Version, s: Struct, r: Resolver, num: Numerics, p: Path)
    requires FieldAt(s, p).Some? && FieldAt(s, p).value.Leaf? && !Reads(v, FieldAt(s, p).value.cell)
    ensures FieldAt(SetProperties(v, s, r, num).value, p) == FieldAt(s, p)
  {
    LeafValue(v, s, r, num, p);
  }

  /** The field at index `j` reads `key` at `q` below it. */
  predicate ChildRead(v: Version, fs: seq<Field>, j: nat, prefix: string, q: Path, key: string)
  {
    j < |fs| &&
    match fs[j]
    case Leaf(tags, c) => |q| == 0 && Reads(v, c) && key == LeafKey(v, prefix, tags.name)
    case Nested(tag, body) => ReadKeyAt(v, body, EnterPrefix(v, prefix, tag), q) == Some(key)
  }

  lemma ChildReadShift(v: Version, fs: seq<Field>, base: nat, k: nat, prefix: string, q: Path, key: string)
    requires |fs| > 0 && base < k
    ensures ChildRead(v, fs[1..], k - (base + 1), prefix, q, key) == ChildRead(v, fs, k - base, prefix, q, key)
  {
    if k - base < |fs| {
      assert fs[1..][k - (base + 1)] == fs[k - base];
    }
  }

  /** The read events of a single field at index `base`. */
  lemma {:induction false} ReadFirst(v: Version, f: Field, base: nat, path: Path, prefix: string,
                                     r: Resolver, num: Numerics, q: Path, key: string)
    ensures Read(path + [base] + q, key) in AssignField(v, f, path + [base], prefix, r, num).events
        <==> ChildRead(v, [f], 0, prefix, q, key)
    decreases f, 0
  {
    match f
    case Nested(tag, body) =>
      ReadStruct(v, body, path + [base], EnterPrefix(v, prefix, tag), r, num, q, key);
    case Leaf(tags, c) =>
      assert |q| == 0 ==> path + [base] + q == path + [base];
      assert |q| > 0 ==> |path + [base] + q| > |path + [base]|;
  }

  lemma {:induction false} ReadHere(v: Version, fs: seq<Field>, base: nat, path: Path, prefix: string,
                                    r: Resolver, num: Numerics, q: Path, key: string)
    requires |fs| > 0
    ensures Read(path + [base] + q, key) in AssignList(v, fs, base, path, prefix, r, num).events
        <==> ChildRead(v, fs, 0, prefix, q, key)
    decreases fs, 0
  {
    var e := Read(path + [base] + q, key);
    assert e.path[|path|] == base;
    ListEvents(v, fs, base, path, prefix, r, num);
    NotInRest(v, fs, base, path, prefix, r, num, e);
    ReadFirst(v, fs[0], base, path, prefix, r, num, q, key);
  }

  lemma ReadLater(v: Version, fs: seq<Field>, base: nat, path: Path, prefix: string,
                  r: Resolver, num: Numerics, k: nat, q: Path, key: string)
    requires |fs| > 0 && k != base
    ensures Read(path + [k] + q, key) in AssignList(v, fs, base, path, prefix, r, num).events
        <==> Read(path + [k] + q, key) in AssignList(v, fs[1..], base + 1, path, prefix, r, num).events
  {
    var e := Read(path + [k] + q, key);
    assert e.path[|path|] == k;
    ListEvents(v, fs, base, path, prefix, r, num);
    NotInFirst(v, fs, base, path, prefix, r, num, e);
  }

  /** A read below index `k` of a field list comes from the field at index `k` and only from it. */
  lemma {:induction false} ReadList(v: Version, fs: seq<Field>, base: nat, path: Path, prefix: string,
                                    r: Resolver, num: Numerics, k: nat, q: Path, key: string)
    ensures Read(path + [k] + q, key) in AssignList(v, fs, base, path, prefix, r, num).events
        <==> base <= k && ChildRead(v, fs, k - base, prefix, q, key)
    decreases fs, 1
  {
    if |fs| == 0 {
      assert AssignList(v, fs, base, path, prefix, r, num).events == [];
    } else if k == base {
      ReadHere(v, fs, base, path, prefix, r, num, q, key);
    } else {
      ReadLater(v, fs, base, path, prefix, r, num, k, q, key);
      ReadList(v, fs[1..], base + 1, path, prefix, r, num, k, q, key);
      if base < k {
        ChildReadShift(v, fs, base, k, prefix, q, key);
      }
    }
  }

  /** Reads below a struct's own path are those of its fields. */
  lemma ReadBelow(v: Version, s: Struct, path: Path, prefix: string, r: Resolver, num: Numerics,
                  k: nat, q: Path, key: string)
    ensures Read(path + [k] + q, key) in AssignStruct(v, s, path, prefix, r, num).events
        <==> Read(path + [k] + q, key) in AssignList(v, s.fields, 0, path, prefix, r, num).events
  {
    var fields := AssignList(v, s.fields, 0, path, prefix, r, num);
    var tail := if s.hasParse then [Hook(path)] else [];
    assert AssignStruct(v, s, path, prefix, r, num).events == fields.events + tail;
  }

  /** A struct level itself is never read: only its hook is at its own path. */
  lemma ReadNotHere(v: Version, s: Struct, path: Path, prefix: string, r: Resolver, num: Numerics, key: string)
    ensures Read(path, key) !in AssignStruct(v, s, path, prefix, r, num).events
  {
    var fields := AssignList(v, s.fields, 0, path, prefix, r, num);
    var tail := if s.hasParse then [Hook(path)] else [];
    assert AssignStruct(v, s, path, prefix, r, num).events == fields.events + tail;
    ListEventsWithin(v, s.fields, 0, path, prefix, r, num);
    assert Read(path, key) !in fields.events;
  }

  /** Reading the field at index `k` of a struct is reading the struct at `[k] + q`. */
  lemma ChildReadIsReadKeyAt(v: Version, s: Struct, prefix: string, k: nat, q: Path, key: string, num: Numerics)
    ensures (0 <= k && ChildRead(v, s.fields, k - 0, prefix, q, key)) <==> ReadKeyAt(v, s, prefix, [k] + q) == Some(key)
  {
    if k < |s.fields| {
      if |q| == 0 {
        assert [k] + q == [k];
        PrefixAtTop(v, s, prefix, k);
        if s.fields[k].Nested? {
          assert FieldAt(s.fields[k].body, q) == None;
        }
      } else if s.fields[k].Nested? {
        StepInto(v, s, prefix, k, q, num);
      } else {
        assert ([k] + q)[1..] == q;
      }
    }
  }

  lemma {:induction false} ReadStruct(v: Version, s: Struct, path: Path, prefix: string,
                                      r: Resolver, num: Numerics, rel: Path, key: string)
    ensures Read(path + rel, key) in AssignStruct(v, s, path, prefix, r, num).events
        <==> ReadKeyAt(v, s, prefix, rel) == Some(key)
    decreases s
  {
    if |rel| == 0 {
      assert path + rel == path;
      ReadNotHere(v, s, path, prefix, r, num, key);
    } else {
      var k := rel[0];
      var q := rel[1..];
      assert rel == [k] + q;
      assert path + rel == path + [k] + q;
      ReadBelow(v, s, path, prefix, r, num, k, q, key);
      ReadList(v, s.fields, 0, path, prefix, r, num, k, q, key);
      ChildReadIsReadKeyAt(v, s, prefix, k, q, key, num);
    }
  }

  /**
    The resolver is consulted exactly at the leaves of a kind the walker reads, each under the
    key its path's prefixes and its `name` tag give it, and nowhere else.
   */
  lemma ReadsExact(v: Version, s: Struct, r: Resolver, num: Numerics, p: Path, key: string)
    ensures Read(p, key) in SetProperties(v, s, r, num).events <==> ReadKeyAt(v, s, "", p) == Some(key)
    ensures multiset(SetProperties(v, s, r, num).events)[Read(p, key)]
         == if ReadKeyAt(v, s, "", p) == Some(key) then 1 else 0
  {
    ReadStruct(v, s, [], "", r, num, p, key);
    assert [] + p == p;
    TraceNoRepeats(v, s, r, num);
    CountNoRepeats(SetProperties(v, s, r, num).events, Read(p, key));
  }

  /**
    coil.go:85-92 against 157-160: a leaf the current walker declares and reads is read under
    exactly the name it was declared with, so the resolver finds the flag.
   */
  lemma DeclaredKeyIsRead(s: Struct, r: Resolver, num: Numerics, p: Path)
    requires FieldAt(s, p).Some? && FieldAt(s, p).value.Leaf? && Reads(Current, FieldAt(s, p).value.cell)
    requires DeclaredAt(Current, s, "", p, num).Some?
    ensures DeclaredAt(Current, s, "", p, num).value in DefineFlags(Current, s, num)
    ensures Read(p, DeclaredAt(Current, s, "", p, num).value.name) in SetProperties(Current, s, r, num).events
  {
    var f := FieldAt(s, p).value;
    ReadKeyAgrees(PrefixAt(Current, s, "", p), f.tags.name);
    RegistrationExact(Current, s, num);
    ReadsExact(Current, s, r, num, p, DeclaredAt(Current, s, "", p, num).value.name);
  }

  /**
    Conversely, every key the current walker reads is either the empty key of an unnamed leaf
    or the qualified name the registration pass gives that leaf.
   */
  lemma ReadKeyIsQualifiedName(s: Struct, r: Resolver, num: Numerics, p: Path, key: string)
    requires Read(p, key) in SetProperties(Current, s, r, num).events
    ensures FieldAt(s, p).Some? && FieldAt(s, p).value.Leaf?
    ensures var name := FieldAt(s, p).value.tags.name;
      && (key == "" <==> name == "")
      && (name != "" ==> key == QualifiedName(PrefixAt(Current, s, "", p), name))
    ensures DeclaredAt(Current, s, "", p, num).Some? ==> key == DeclaredAt(Current, s, "", p, num).value.name
  {
    ReadsExact(Current, s, r, num, p, key);
    var f := FieldAt(s, p).value;
    ReadKeyAgrees(PrefixAt(Current, s, "", p), f.tags.name);
  }

  /**
    coil.go:85-87 against 157-165: an unnamed leaf is never declared, but the current walker
    still reads it, under the empty key.
   */
  lemma UnnamedLeafStillRead(s: Struct, r: Resolver, num: Numerics, p: Path)
    requires FieldAt(s, p).Some? && FieldAt(s, p).value.Leaf?
    requires FieldAt(s, p).value.tags.name == "" && Reads(Current, FieldAt(s, p).value.cell)
    ensures DeclaredAt(Current, s, "", p, num) == None
    ensures Read(p, "") in SetProperties(Current, s, r, num).events
  {
    ReadsExact(Current, s, r, num, p, "");
  }

  /** A non-empty field list after assignment, one step unfolded. */
  lemma ListTraced(v: Version, fs: seq<Field>, base: nat, path: Path, prefix: string, r: Resolver, num: Numerics)
    requires |fs| > 0
    ensures var first := AssignField(v, fs[0], path + [base], prefix, r, num);
      var rest := AssignList(v, fs[1..], base + 1, path, prefix, r, num);
      AssignList(v, fs, base, path, prefix, r, num) == Traced([first.value] + rest.value, first.events + rest.events)
  {
  }

  lemma {:induction false} AssignFieldIdempotent(v: Version, f: Field, p: Path, prefix: string,
                                                 r: Resolver, num: Numerics)
    ensures var once := AssignField(v, f, p, prefix, r, num);
      AssignField(v, once.value, p, prefix, r, num) == once
    decreases f
  {
    match f
    case Nested(tag, body) =>
      AssignStructIdempotent(v, body, p, EnterPrefix(v, prefix, tag), r, num);
    case Leaf(tags, c) =>
      var key := LeafKey(v, prefix, tags.name);
      AssignCellIdempotent(v, c, tags, key, r, num);
      SameKindReads(v, c, AssignCell(v, c, tags, key, r, num));
  }

  lemma {:induction false} AssignListIdempotent(v: Version, fs: seq<Field>, base: nat, path: Path, prefix: string,
                                                r: Resolver, num: Numerics)
    ensures var once := AssignList(v, fs, base, path, prefix, r, num);
      AssignList(v, once.value, base, path, prefix, r, num) == once
    decreases fs
  {
    var once := AssignList(v, fs, base, path, prefix, r, num);
    if |fs| > 0 {
      var first := AssignField(v, fs[0], path + [base], prefix, r, num);
      var rest := AssignList(v, fs[1..], base + 1, path, prefix, r, num);
      ListTraced(v, fs, base, path, prefix, r, num);
      ListTraced(v, once.value, base, path, prefix, r, num);
      assert once.value[0] == first.value && once.value[1..] == rest.value;
      AssignFieldIdempotent(v, fs[0], path + [base], prefix, r, num);
      AssignListIdempotent(v, fs[1..], base + 1, path, prefix, r, num);
    }
  }

  lemma {:induction false} AssignStructIdempotent(v: Version, s: Struct, path: Path, prefix: string,
                                                  r: Resolver, num: Numerics)
    ensures var once := AssignStruct(v, s, path, prefix, r, num);
      AssignStruct(v, once.value, path, prefix, r, num) == once
    decreases s
  {
    AssignListIdempotent(v, s.fields, 0, path, prefix, r, num);
  }

  /**
    Running the assignment pass a second time against the same resolver reads the same keys,
    calls the same hooks in the same order, and leaves the instance as the first run left it.
   */
  lemma SetPropertiesIdempotent(v: Version, s: Struct, r: Resolver, num: Numerics)
    ensures var once := SetProperties(v, s, r, num);
      SetProperties(v, once.value, r, num) == once
  {
    AssignStructIdempotent(v, s, [], "", r, num);
  }
}

=== FILE: legacy.dfy ===
/**
  The older walker of main.go: flags go straight onto the global command line under their bare
  `name` tags (prefix tags are not looked at), float defaults go through the integer parser,
  and the assignment pass copies the resolved value into every string, bool, int and float64
  field without consulting `IsSet` or the `default` tag, and never writes a float32 field.
 */
module Legacy {
  import opened Wrappers
  import opened Strconv
  import opened Schema
  import opened Registration
  import opened Assignment
  import opened Leaves
  import opened FlagSets
  import Coil

  /**
    main.go:107-112 with `generate` (main.go:34-37): the struct's flags, then `config`, are
    declared on the global command line; None stands for pflag's panic on a name defined twice.
    The instance is filled, and its hooks called, from the resolver bound to that global set.
   */
  function NewConfig(c: Struct, global: FlagSet, viper: Coil.Binder, num: Numerics): (o: Option<Coil.Outcome>)
    ensures DistinctNames(global) ==>
      (o.Some? <==> DistinctNames(global + DefineFlags(Legacy, c, num) + [Coil.ConfigFlag]))
    ensures o.Some? ==> o.value.global == global + DefineFlags(Legacy, c, num) + [Coil.ConfigFlag]
    ensures o.Some? ==> o.value.declaredInto == o.value.global
    ensures o.Some? ==> o.value.parser == viper(o.value.global)
    ensures o.Some? ==> (Traced(o.value.config, o.value.events)
                         == SetProperties(Legacy, c, viper(o.value.global), num))
  {
    var ds := DefineFlags(Legacy, c, num);
    DeclareAllSucceeds(global, ds);
    DeclareAllSucceeds(global + ds, [Coil.ConfigFlag]);
    DistinctPrefix(global + ds, [Coil.ConfigFlag]);
    match DeclareAll(global, ds)
    case None => None
    case Some(g1) => (
      match DeclareAll(g1, [Coil.ConfigFlag])
      case None => None
      case Some(g2) =>
        var filled := SetProperties(Legacy, c, viper(g2), num);
        Some(Coil.Outcome(g2, g2, viper(g2), filled.value, filled.events)))
  }

  /**
    main.go:107-112: the instance the older `NewConfig` returns holds at every leaf the value
    the older rule takes from the resolver under the bare name, the resolver is consulted at
    exactly the leaves of a kind it reads, and every `Parse` hook runs exactly once.
   */
  lemma NewConfigFills(c: Struct, global: FlagSet, viper: Coil.Binder, num: Numerics, p: Path, key: string)
    requires NewConfig(c, global, viper, num).Some?
    ensures var o := NewConfig(c, global, viper, num).value;
      Coil.FilledFrom(Legacy, c, viper(o.global), num, o.config, o.events, p, key)
  {
    Coil.SetPropertiesFills(Legacy, c, viper(NewConfig(c, global, viper, num).value.global), num, p, key);
  }

  lemma DistinctPrefix(a: FlagSet, b: FlagSet)
    ensures DistinctNames(a + b) ==> DistinctNames(a)
  {
    if DistinctNames(a + b) {
      forall i, j | 0 <= i < j < |a|
        ensures a[i].name != a[j].name
      {
        assert (a + b)[i] == a[i] && (a + b)[j] == a[j];
      }
    }
  }

  /** A flag set that already defines `config` makes the older `generate` panic. */
  lemma ConfigDefinedPanics(c: Struct, global: FlagSet, viper: Coil.Binder, num: Numerics)
    requires Lookup(global + DefineFlags(Legacy, c, num), "config").Some?
    ensures NewConfig(c, global, viper, num) == None
  {
  }

  /**
    main.go:35: `generate` declares `config` unconditionally, so a second `NewConfig` in the
    same process panics, whatever struct it is given.
   */
  lemma SecondCallPanics(c: Struct, c2: Struct, global: FlagSet, viper: Coil.Binder, viper2: Coil.Binder, num: Numerics)
    requires NewConfig(c, global, viper, num).Some?
    ensures NewConfig(c2, NewConfig(c, global, viper, num).value.global, viper2, num) == None
  {
    var g := NewConfig(c, global, viper, num).value.global;
    var ds := DefineFlags(Legacy, c2, num);
    assert (g + ds)[|g| - 1] == Coil.ConfigFlag;
    ConfigDefinedPanics(c2, g, viper2, num);
  }

  /** A struct leaf declaring the name `config` makes the older `NewConfig` panic. */
  lemma ConfigLeafPanics(c: Struct, global: FlagSet, viper: Coil.Binder, num: Numerics, d: Decl)
    requires d in DefineFlags(Legacy, c, num) && d.name == "config"
    ensures NewConfig(c, global, viper, num) == None
  {
    var ds := DefineFlags(Legacy, c, num);
    var i :| 0 <= i < |ds| && ds[i] == d;
    assert (global + ds)[|global| + i] == d;
    ConfigDefinedPanics(c, global, viper, num);
  }

  /** main.go:41-76: every declared flag is named by a leaf's bare `name` tag, wherever it is nested. */
  lemma NamesAreBare(s: Struct, num: Numerics, d: Decl)
    requires d in DefineFlags(Legacy, s, num)
    ensures exists p :: FieldAt(s, p).Some? && FieldAt(s, p).value.Leaf? && FieldAt(s, p).value.tags.name == d.name
  {
    RegistrationExact(Legacy, s, num);
    var p :| DeclaredAt(Legacy, s, "", p, num) == Some(d);
    assert FieldAt(s, p).Some? && FieldAt(s, p).value.Leaf?;
  }

  /** main.go:89-96: every key the older walker reads is a leaf's bare `name` tag. */
  lemma KeysAreBare(s: Struct, r: Resolver, num: Numerics, p: Path, key: string)
    requires Read(p, key) in SetProperties(Legacy, s, r, num).events
    ensures FieldAt(s, p).Some? && FieldAt(s, p).value.Leaf? && key == FieldAt(s, p).value.tags.name
  {
    ReadsExact(Legacy, s, r, num, p, key);
  }

  /** main.go:94: the float32 case is empty, so a float32 field is neither read nor written. */
  lemma Float32Untouched(s: Struct, r: Resolver, num: Numerics, p: Path, key: string)
    requires FieldAt(s, p).Some? && FieldAt(s, p).value.Leaf? && FieldAt(s, p).value.cell.Float32Cell?
    ensures FieldAt(SetProperties(Legacy, s, r, num).value, p) == FieldAt(s, p)
    ensures Read(p, key) !in SetProperties(Legacy, s, r, num).events
  {
    OtherKindsUntouched(Legacy, s, r, num, p);
    ReadsExact(Legacy, s, r, num, p, key);
  }

  /**
    main.go:64-73: float defaults are parsed as integers, so "3.14" declares no flag while "3"
    declares 3.0; main.go:50-74 knows no `[]string` or `duration` tag.
   */
  lemma IntegerParsedFloats(num: Numerics)
    ensures LegacyDefaultValue("float32", "3.14", num) == None
    ensures LegacyDefaultValue("float64", "3", num) == Some(Float64Flag(num.toFloat64(3 as real)))
    ensures LegacyDefaultValue("float32", "3", num) == Some(Float32Flag(num.toFloat32(3 as real)))
    ensures LegacyDefaultValue("", "3", num) == None
    ensures LegacyDefaultValue("[]string", "a,b", num) == None
    ensures LegacyDefaultValue("duration", "5s", num) == None
  {
    assert !AllDigits("3.14"[1..]) by { assert !IsDigit("3.14"[1..][0]); }
    assert ParseInt("3") == Some(3) by { assert DecimalValue("3") == 3; }
  }

  /**
    main.go:50-74: the older walker declares nothing for a leaf exactly when its `type` tag is
    not one of its five, or the tag is numeric and the default is not a decimal integer. The
    `name` tag plays no part, so an unnamed leaf is declared under "".
   */
  lemma LegacyDeclareLeafSkips(prefix: string, tags: Tags, num: Numerics)
    ensures DeclareLeaf(Legacy, prefix, tags, num).None? <==>
      || tags.typeTag !in {"string", "int", "bool", "float32", "float64"}
      || (tags.typeTag in {"int", "float32", "float64"} && ParseInt(tags.default).None?)
    ensures DeclareLeaf(Legacy, prefix, tags, num).Some? ==>
      DeclareLeaf(Legacy, prefix, tags, num).value.name == tags.name
  {
  }

  /**
    main.go:52-73: the flag value the older walker declares for each of its five tags; a float
    default is the integer value of the tag, converted.
   */
  lemma LegacyDefaultValues(default: string, num: Numerics)
    ensures LegacyDefaultValue("string", default, num) == Some(StringFlag(default))
    ensures LegacyDefaultValue("bool", default, num) == Some(BoolFlag(default == "true"))
    ensures ParseInt(default).Some? ==>
      && LegacyDefaultValue("int", default, num) == Some(Int64Flag(ParseInt(default).value))
      && LegacyDefaultValue("float32", default, num) == Some(Float32Flag(num.toFloat32(ParseInt(default).value as real)))
      && LegacyDefaultValue("float64", default, num) == Some(Float64Flag(num.toFloat64(ParseInt(default).value as real)))
    ensures ParseInt(default).None? ==>
      && LegacyDefaultValue("int", default, num) == None
      && LegacyDefaultValue("float32", default, num) == None
      && LegacyDefaultValue("float64", default, num) == None
  {
  }

  /**
    main.go:51-63 against coil.go:85-87: whatever its `type` tag, an unnamed leaf is declared
    under "" by the older walker whenever its default is accepted, and never by the current one.
   */
  lemma UnnamedLeafDeclared(typeTag: string, default: string, desc: string, prefix: string, num: Numerics)
    ensures var tags := Tags(typeTag, "", default, desc);
      && (LegacyDefaultValue(typeTag, default, num).Some? ==>
            DeclareLeaf(Legacy, prefix, tags, num) == Some(Decl("", LegacyDefaultValue(typeTag, default, num).value, desc)))
      && DeclareLeaf(Current, prefix, tags, num) == None
  {
  }

  /**
    main.go:88-96: the resolved value is copied unconditionally, whether or not the key is set
    and even when it is empty; a float32 field is never written. So the older walker's result
    depends neither on the `default` tag nor on the field's prior value.
   */
  lemma IgnoresDefaults(c: Cell, c2: Cell, tags: Tags, tags2: Tags, key: string, r: Resolver, num: Numerics)
    requires SameKind(c, c2)
    ensures var c' := AssignCell(Legacy, c, tags, key, r, num);
      && (c.StrCell? ==> c' == StrCell(r.getString(key)))
      && (c.BoolCell? ==> c' == BoolCell(r.getBool(key)))
      && (c.IntCell? ==> c' == IntCell(r.getInt64(key)))
      && (c.Float32Cell? ==> c' == c)
      && (c.Float64Cell? ==> c' == Float64Cell(r.getFloat64(key)))
    ensures Reads(Legacy, c) ==> AssignCell(Legacy, c, tags, key, r, num) == AssignCell(Legacy, c2, tags2, key, r, num)
  {
  }

  /**
    The two walkers disagree on an empty resolved string: the current one falls back to the
    `default` tag (coil.go:162-164), the older one stores the empty string (main.go:89).
   */
  lemma EmptyStringRulesDiffer(c: Cell, tags: Tags, key: string, r: Resolver, num: Numerics)
    requires c.StrCell? && r.getString(key) == "" && tags.default != ""
    ensures AssignCell(Legacy, c, tags, key, r, num) == StrCell("")
    ensures AssignCell(Current, c, tags, key, r, num) == StrCell(tags.default)
    ensures AssignCell(Legacy, c, tags, key, r, num) != AssignCell(Current, c, tags, key, r, num)
  {
  }

  /** No nested struct carries a `prefix` tag, at any depth. */
  predicate PrefixFree(s: Struct)
    decreases s
  {
    forall i :: 0 <= i < |s.fields| ==> s.fields[i].Nested? ==>
      s.fields[i].prefix == "" && PrefixFree(s.fields[i].body)
  }

  /** Without prefix tags the current walker's prefix is empty everywhere. */
  lemma {:induction false} PrefixFreeNoPrefix(s: Struct, p: Path)
    requires PrefixFree(s)
    ensures PrefixAt(Current, s, "", p) == ""
    decreases s
  {
    if |p| > 1 && p[0] < |s.fields| && s.fields[p[0]].Nested? {
      var f := s.fields[p[0]];
      PrefixFreeNoPrefix(f.body, p[1..]);
      assert ChainAt(s, p) == [""] + ChainAt(f.body, p[1..]);
      assert ([""] + ChainAt(f.body, p[1..]))[1..] == ChainAt(f.body, p[1..]);
    }
  }

  /**
    On a struct without prefix tags the two walkers read every leaf they both read under the
    same key, its bare name; they differ only on float32 fields, which the older one skips.
   */
  lemma KeysAgreeWithoutPrefixes(s: Struct, r: Resolver, num: Numerics, p: Path)
    requires PrefixFree(s)
    requires FieldAt(s, p).Some? && FieldAt(s, p).value.Leaf? && !FieldAt(s, p).value.cell.Float32Cell?
    ensures ReadKeyAt(Current, s, "", p) == ReadKeyAt(Legacy, s, "", p)
  {
    PrefixFreeNoPrefix(s, p);
  }
}

=== FILE: naming.dfy ===
/**
  Namespace prefixes and qualified names (coil.go). Entering a nested struct composes the
  ambient prefix with the struct field's `prefix` tag; a named leaf's key is the ambient prefix
  and its `name` tag joined with an underscore. Both walks compute these the same way.
 */
module Naming {
  import opened Strings

  /** The prefix in force inside a nested struct whose field carries `prefix:"tag"`. */
  function ComposePrefix(ambient: string, tag: string): string
  {
    if tag != "" then
      if ambient != "" then ambient + "_" + tag else tag
    else ambient
  }

  /** The flag name the registration pass gives a leaf it has found a `name` tag on. */
  function QualifiedName(prefix: string, name: string): string
  {
    if prefix != "" then prefix + "_" + name else name
  }

  /**
    The key the assignment pass reads for a leaf. Unlike the registration pass it does not
    skip unnamed leaves, so an empty `name` yields the empty key.
   */
  function ReadKey(prefix: string, name: string): string
  {
    if prefix != "" && name != "" then prefix + "_" + name else name
  }

  /** The prefix after entering nested structs tagged `chain`, in order, starting from `ambient`. */
  function FoldPrefix(ambient: string, chain: seq<string>): string
    decreases |chain|
  {
    if |chain| == 0 then ambient
    else FoldPrefix(ComposePrefix(ambient, chain[0]), chain[1..])
  }

  /** The non-empty strings of `tags`, in order. */
  function NonEmpty(tags: seq<string>): (r: seq<string>)
    ensures forall i :: 0 <= i < |r| ==> r[i] != ""
  {
    if |tags| == 0 then []
    else NonEmpty(tags[..|tags| - 1]) + (if tags[|tags| - 1] != "" then [tags[|tags| - 1]] else [])
  }

  /** Prefix composition is associative, so nesting can be grouped either way. */
  lemma ComposeAssociative(a: string, b: string, c: string)
    ensures ComposePrefix(ComposePrefix(a, b), c) == ComposePrefix(a, ComposePrefix(b, c))
  {
    if a != "" && b != "" && c != "" {
      assert (a + "_" + b) + "_" + c == a + "_" + (b + "_" + c);
    }
  }

  /** The empty tag and the empty ambient prefix change nothing. */
  lemma ComposeIdentity(a: string)
    ensures ComposePrefix(a, "") == a && ComposePrefix("", a) == a
  {
  }

  /** Entering structs from a non-empty start is composing the start with the chain's own prefix. */
  lemma {:induction false} FoldPrefixFrom(ambient: string, chain: seq<string>)
    ensures FoldPrefix(ambient, chain) == ComposePrefix(ambient, FoldPrefix("", chain))
    decreases |chain|
  {
    if |chain| > 0 {
      var t := chain[0];
      FoldPrefixFrom(ComposePrefix(ambient, t), chain[1..]);
      FoldPrefixFrom(t, chain[1..]);
      ComposeAssociative(ambient, t, FoldPrefix("", chain[1..]));
    }
  }

  /** One more nested struct at the bottom of the chain. */
  lemma {:induction false} FoldPrefixSnoc(ambient: string, chain: seq<string>, t: string)
    ensures FoldPrefix(ambient, chain + [t]) == ComposePrefix(FoldPrefix(ambient, chain), t)
    decreases |chain|
  {
    if |chain| == 0 {
      assert chain + [t] == [t];
    } else {
      assert (chain + [t])[1..] == chain[1..] + [t];
      FoldPrefixSnoc(ComposePrefix(ambient, chain[0]), chain[1..], t);
    }
  }

  /** A join of non-empty parts is empty exactly when there are no parts. */
  lemma {:induction false} JoinNonEmptyParts(parts: seq<string>)
    requires forall i :: 0 <= i < |parts| ==> parts[i] != ""
    ensures JoinWith(parts, '_') == "" <==> |parts| == 0
  {
    if |parts| > 0 {
      assert parts[|parts| - 1] != "";
    }
  }

  /**
    Prefix composition at any depth: the prefix inside structs tagged `chain` is the
    underscore-join of the non-empty tags, outermost first.
   */
  lemma {:induction false} FoldPrefixIsJoin(chain: seq<string>)
    ensures FoldPrefix("", chain) == JoinWith(NonEmpty(chain), '_')
    decreases |chain|
  {
    if |chain| > 0 {
      var init := chain[..|chain| - 1];
      var t := chain[|chain| - 1];
      assert chain == init + [t];
      FoldPrefixIsJoin(init);
      FoldPrefixSnoc("", init, t);
      var ne := NonEmpty(init);
      if t != "" {
        assert NonEmpty(chain) == ne + [t];
        JoinNonEmptyParts(ne);
        if |ne| > 0 {
          assert (ne + [t])[..|ne|] == ne;
        }
      } else {
        assert NonEmpty(chain) == ne;
      }
    }
  }

  /** A named leaf's flag name is the composition of its prefix with its name. */
  lemma QualifiedNameIsComposition(prefix: string, name: string)
    requires name != ""
    ensures QualifiedName(prefix, name) == ComposePrefix(prefix, name)
    ensures |QualifiedName(prefix, name)| > |prefix|
  {
  }

  /** Both passes give a named leaf the same key; an unnamed leaf is read under the empty key. */
  lemma ReadKeyAgrees(prefix: string, name: string)
    ensures name != "" ==> ReadKey(prefix, name) == QualifiedName(prefix, name)
    ensures name == "" ==> ReadKey(prefix, name) == ""
  {
  }

  /**
    A named leaf inside structs tagged `chain` is keyed by the underscore-join of the
    non-empty tags followed by its name.
   */
  lemma QualifiedNameIsJoin(chain: seq<string>, name: string)
    requires name != ""
    ensures QualifiedName(FoldPrefix("", chain), name) == JoinWith(NonEmpty(chain + [name]), '_')
  {
    FoldPrefixSnoc("", chain, name);
    FoldPrefixIsJoin(chain + [name]);
  }

  /**
    When one block is used under several prefixes, the same leaf never clashes with its own
    copies: its names under two prefixes are equal only when the prefixes are. A leaf `n` of
    the bare copy does clash with leaf `m` of the copy under a non-empty prefix `t` exactly when
    `n` is `t_m`.
   */
  lemma CopiesClash(t: string, t': string, n: string, m: string)
    requires m != ""
    ensures QualifiedName(t, m) == QualifiedName(t', m) <==> t == t'
    ensures t != "" ==> (QualifiedName("", n) == QualifiedName(t, m) <==> n == t + "_" + m)
  {
    if QualifiedName(t, m) == QualifiedName(t', m) && t != "" && t' != "" {
      var a, b := t + "_" + m, t' + "_" + m;
      assert |t| == |t'|;
      assert a[..|t|] == t && b[..|t'|] == t';
    }
  }
}

=== FILE: registration.dfy ===
/**
  The registration pass: `defineFlagsFromStructWithPrefix` (coil.go:68-128) and the older
  `defineFlagsFromStruct` (main.go:41-76). It walks the struct type, entering nested structs
  with the composed prefix, and turns each leaf whose tags it accepts into a typed flag
  declaration. A leaf it does not accept is skipped on its own; nothing is reported.
 */
module Registration {
  import opened Wrappers
  import opened Strconv
  import opened Strings
  import opened Schema
  import opened Naming

  /** The prefix inside a nested struct: composed in coil.go (73-81), ignored in main.go (44-45). */
  function EnterPrefix(v: Version, ambient: string, tag: string): string
  {
    match v
    case Current => ComposePrefix(ambient, tag)
    case Legacy => ambient
  }

  /** The prefix in force at the field at `p` when the walk starts with `ambient`. */
  function PrefixAt(v: Version, s: Struct, ambient: string, p: Path): string
  {
    match v
    case Current => FoldPrefix(ambient, ChainAt(s, p))
    case Legacy => ambient
  }

  /** coil.go:95-126: the typed default for each `type` tag the current walker knows. */
  function DefaultValue(typeTag: string, default: string, num: Numerics): Option<FlagValue>
  {
    if typeTag == "string" then Some(StringFlag(default))
    else if typeTag == "[]string" then Some(StringSliceFlag(Split(default, ',')))
    else if typeTag == "int" then
      match ParseInt(default)
      case Some(n) => Some(Int64Flag(n))
      case None => None
    else if typeTag == "bool" then Some(BoolFlag(default == "true"))
    else if typeTag == "float32" then
      match num.parseFloat32(default)
      case Some(x) => Some(Float32Flag(x))
      case None => None
    else if typeTag == "float64" then
      match num.parseFloat64(default)
      case Some(x) => Some(Float64Flag(x))
      case None => None
    else if typeTag == "duration" then
      match num.parseDuration(default)
      case Some(d) => Some(DurationFlag(d))
      case None => None
    else None
  }

  /**
    main.go:50-74: the older walker knows five tags only, and parses float defaults with the
    integer parser before converting them.
   */
  function LegacyDefaultValue(typeTag: string, default: string, num: Numerics): Option<FlagValue>
  {
    if typeTag == "string" then Some(StringFlag(default))
    else if typeTag == "int" then
      match ParseInt(default)
      case Some(n) => Some(Int64Flag(n))
      case None => None
    else if typeTag == "bool" then Some(BoolFlag(default == "true"))
    else if typeTag == "float32" then
      match ParseInt(default)
      case Some(n) => Some(Float32Flag(num.toFloat32(n as real)))
      case None => None
    else if typeTag == "float64" then
      match ParseInt(default)
      case Some(n) => Some(Float64Flag(num.toFloat64(n as real)))
      case None => None
    else None
  }

  /** The declaration one leaf contributes, if any. */
  function DeclareLeaf(v: Version, prefix: string, tags: Tags, num: Numerics): (d: Option<Decl>)
    ensures d.Some? ==> d.value.usage == tags.desc
    ensures v == Current && d.Some? ==> tags.name != "" && d.value.name == QualifiedName(prefix, tags.name)
    ensures v == Legacy && d.Some? ==> d.value.name == tags.name
  {
    match v
    case Current =>
      if tags.name == "" then None
      else (
        match DefaultValue(tags.typeTag, tags.default, num)
        case Some(x) => Some(Decl(QualifiedName(prefix, tags.name), x, tags.desc))
        case None => None)
    case Legacy =>
      match LegacyDefaultValue(tags.typeTag, tags.default, num)
      case Some(x) => Some(Decl(tags.name, x, tags.desc))
      case None => None
  }

  /** `s` begins with `p`. */
  predicate StartsWith(s: string, p: string)
  {
    |p| <= |s| && s[..|p|] == p
  }

  /**
    The declarations of a field sequence, in field order, depth first. Under the current
    walker every declared name is non-empty and lies in the namespace of the ambient prefix.
   */
  function RegisterList(v: Version, fs: seq<Field>, prefix: string, num: Numerics): (ds: seq<Decl>)
    ensures v == Current ==> forall i :: 0 <= i < |ds| ==> ds[i].name != ""
    ensures v == Current && prefix != "" ==> forall i :: 0 <= i < |ds| ==> StartsWith(ds[i].name, prefix + "_")
    decreases fs
  {
    if |fs| == 0 then []
    else RegisterField(v, fs[0], prefix, num) + RegisterList(v, fs[1..], prefix, num)
  }

  function RegisterField(v: Version, f: Field, prefix: string, num: Numerics): (ds: seq<Decl>)
    ensures v == Current ==> forall i :: 0 <= i < |ds| ==> ds[i].name != ""
    ensures v == Current && prefix != "" ==> forall i :: 0 <= i < |ds| ==> StartsWith(ds[i].name, prefix + "_")
    decreases f
  {
    match f
    case Nested(tag, body) =>
      var inner := EnterPrefix(v, prefix, tag);
      var ds := RegisterList(v, body.fields, inner, num);
      assert v == Current && prefix != "" ==> StartsWith(inner, prefix) && |inner| >= |prefix|;
      assert v == Current && prefix != "" && inner != prefix ==> StartsWith(inner + "_", prefix + "_");
      ds
    case Leaf(tags, _) =>
      ToSeq(DeclareLeaf(v, prefix, tags, num))
  }

  /** `defineFlagsFromStruct`: the declarations of a whole struct, starting with no prefix. */
  function DefineFlags(v: Version, s: Struct, num: Numerics): seq<Decl>
  {
    RegisterList(v, s.fields, "", num)
  }

  /** The declaration the leaf at `p` would contribute on its own. */
  function DeclaredAt(v: Version, s: Struct, ambient: string, p: Path, num: Numerics): Option<Decl>
  {
    match FieldAt(s, p)
    case Some(Leaf(tags, _)) => DeclareLeaf(v, PrefixAt(v, s, ambient, p), tags, num)
    case _ => None
  }

  /** A declaration of a field sequence is a declaration of one of its fields. */
  lemma {:induction false} RegisterListMembers(v: Version, fs: seq<Field>, prefix: string, num: Numerics)
    ensures forall d :: d in RegisterList(v, fs, prefix, num) <==>
      exists k :: 0 <= k < |fs| && d in RegisterField(v, fs[k], prefix, num)
    decreases |fs|
  {
    if |fs| > 0 {
      var rest := fs[1..];
      RegisterListMembers(v, rest, prefix, num);
      forall d
        ensures d in RegisterList(v, fs, prefix, num) <==>
          exists k :: 0 <= k < |fs| && d in RegisterField(v, fs[k], prefix, num)
      {
        if d in RegisterList(v, rest, prefix, num) {
          var k :| 0 <= k < |rest| && d in RegisterField(v, rest[k], prefix, num);
          assert rest[k] == fs[k + 1];
        }
        if exists k :: 0 <= k < |fs| && d in RegisterField(v, fs[k], prefix, num) {
          var k :| 0 <= k < |fs| && d in RegisterField(v, fs[k], prefix, num);
          if k > 0 {
            assert fs[k] == rest[k - 1];
          }
        }
      }
    }
  }

  /** Descending into the nested field at index `k`: the field, prefix and declaration below it. */
  lemma StepInto(v: Version, s: Struct, ambient: string, k: nat, q: Path, num: Numerics)
    requires k < |s.fields| && s.fields[k].Nested? && |q| > 0
    ensures FieldAt(s, [k] + q) == FieldAt(s.fields[k].body, q)
    ensures PrefixAt(v, s, ambient, [k] + q)
         == PrefixAt(v, s.fields[k].body, EnterPrefix(v, ambient, s.fields[k].prefix), q)
    ensures DeclaredAt(v, s, ambient, [k] + q, num)
         == DeclaredAt(v, s.fields[k].body, EnterPrefix(v, ambient, s.fields[k].prefix), q, num)
  {
    assert ([k] + q)[1..] == q;
  }

  /** Every leaf the declaration rules accept is declared by the registration pass. */
  lemma {:induction false} DeclaredIsRegistered(v: Version, s: Struct, ambient: string, num: Numerics, p: Path)
    requires DeclaredAt(v, s, ambient, p, num).Some?
    ensures DeclaredAt(v, s, ambient, p, num).value in RegisterList(v, s.fields, ambient, num)
    decreases s
  {
    var k := p[0];
    RegisterListMembers(v, s.fields, ambient, num);
    if |p| > 1 {
      var f := s.fields[k];
      var q := p[1..];
      assert p == [k] + q;
      StepInto(v, s, ambient, k, q, num);
      DeclaredIsRegistered(v, f.body, EnterPrefix(v, ambient, f.prefix), num, q);
    }
  }

  /** Every declaration of the registration pass comes from a leaf the declaration rules accept. */
  lemma {:induction false} RegisteredIsDeclared(v: Version, s: Struct, ambient: string, num: Numerics, d: Decl)
    requires d in RegisterList(v, s.fields, ambient, num)
    ensures exists p :: DeclaredAt(v, s, ambient, p, num) == Some(d)
    decreases s
  {
    RegisterListMembers(v, s.fields, ambient, num);
    var k :| 0 <= k < |s.fields| && d in RegisterField(v, s.fields[k], ambient, num);
    match s.fields[k]
    case Leaf(tags, _) =>
      assert DeclaredAt(v, s, ambient, [k], num) == Some(d);
    case Nested(t, body) =>
      var inner := EnterPrefix(v, ambient, t);
      RegisteredIsDeclared(v, body, inner, num, d);
      var q :| DeclaredAt(v, body, inner, q, num) == Some(d);
      StepInto(v, s, ambient, k, q, num);
  }

  /** `a` comes before `b` in field order, depth first: the field indices compared lexicographically. */
  predicate PathBefore(a: Path, b: Path)
    decreases |a|
  {
    |a| > 0 && |b| > 0 && (a[0] < b[0] || (a[0] == b[0] && PathBefore(a[1..], b[1..])))
  }

  /** No path comes before itself, so paths in strict field order are distinct. */
  lemma {:induction false} PathBeforeIrreflexive(a: Path)
    ensures !PathBefore(a, a)
    decreases |a|
  {
    if |a| > 0 {
      PathBeforeIrreflexive(a[1..]);
    }
  }

  /** The paths are in strict field order. */
  predicate InFieldOrder(ps: seq<Path>)
  {
    forall i, j :: 0 <= i < j < |ps| ==> PathBefore(ps[i], ps[j])
  }

  /** Every path starts at a field index in `lo..hi - 1`. */
  predicate StartsWithin(ps: seq<Path>, lo: nat, hi: nat)
  {
    forall i :: 0 <= i < |ps| ==> |ps[i]| > 0 && lo <= ps[i][0] < hi
  }

  /** The paths `ps`, each entered through the field at index `k`. */
  function Under(k: nat, ps: seq<Path>): (qs: seq<Path>)
    ensures |qs| == |ps|
    ensures forall i :: 0 <= i < |ps| ==> qs[i] == [k] + ps[i]
  {
    seq(|ps|, i requires 0 <= i < |ps| => [k] + ps[i])
  }

  /** The paths of the accepted leaves at or below the field at index `k` of `s`, in visiting order. */
  function PathsAtField(v: Version, s: Struct, ambient: string, k: nat, num: Numerics): seq<Path>
    requires k < |s.fields|
    decreases s, |s.fields| - k, 0
  {
    match s.fields[k]
    case Leaf(tags, _) => if DeclareLeaf(v, ambient, tags, num).Some? then [[k]] else []
    case Nested(t, body) => Under(k, PathsFrom(v, body, EnterPrefix(v, ambient, t), 0, num))
  }

  /** The paths of the accepted leaves among the fields `k..` of `s`, in visiting order. */
  function PathsFrom(v: Version, s: Struct, ambient: string, k: nat, num: Numerics): seq<Path>
    decreases s, |s.fields| - k, 1
  {
    if k >= |s.fields| then []
    else PathsAtField(v, s, ambient, k, num) + PathsFrom(v, s, ambient, k + 1, num)
  }

  /** The paths of all accepted leaves of a struct, in the order the registration pass visits them. */
  function AcceptedPaths(v: Version, s: Struct, num: Numerics): seq<Path>
  {
    PathsFrom(v, s, "", 0, num)
  }

  /** Entering a field keeps the order of the paths below it. */
  lemma UnderBefore(k: nat, a: Path, b: Path)
    ensures PathBefore([k] + a, [k] + b) == PathBefore(a, b)
  {
    assert ([k] + a)[1..] == a && ([k] + b)[1..] == b;
  }

  lemma {:induction false} PathsAtFieldSorted(v: Version, s: Struct, ambient: string, k: nat, num: Numerics)
    requires k < |s.fields|
    ensures StartsWithin(PathsAtField(v, s, ambient, k, num), k, k + 1)
    ensures InFieldOrder(PathsAtField(v, s, ambient, k, num))
    decreases s, |s.fields| - k, 0
  {
    match s.fields[k]
    case Leaf(_, _) =>
    case Nested(t, body) =>
      var qs := PathsFrom(v, body, EnterPrefix(v, ambient, t), 0, num);
      PathsFromSorted(v, body, EnterPrefix(v, ambient, t), 0, num);
      forall i, j | 0 <= i < j < |qs|
        ensures PathBefore([k] + qs[i], [k] + qs[j])
      {
        assert PathBefore(qs[i], qs[j]);
        UnderBefore(k, qs[i], qs[j]);
      }
  }

  /** The accepted paths among the fields `k..` lie below those fields and are in strict field order. */
  lemma {:induction false} PathsFromSorted(v: Version, s: Struct, ambient: string, k: nat, num: Numerics)
    ensures StartsWithin(PathsFrom(v, s, ambient, k, num), k, |s.fields|)
    ensures InFieldOrder(PathsFrom(v, s, ambient, k, num))
    decreases s, |s.fields| - k, 1
  {
    if k < |s.fields| {
      var here := PathsAtField(v, s, ambient, k, num);
      var later := PathsFrom(v, s, ambient, k + 1, num);
      PathsAtFieldSorted(v, s, ambient, k, num);
      PathsFromSorted(v, s, ambient, k + 1, num);
      var ps := here + later;
      forall i | 0 <= i < |ps|
        ensures |ps[i]| > 0 && k <= ps[i][0] < |s.fields|
      {
        if i < |here| {
          assert ps[i] == here[i];
        } else {
          assert ps[i] == later[i - |here|];
        }
      }
      forall i, j | 0 <= i < j < |ps|
        ensures PathBefore(ps[i], ps[j])
      {
        if j < |here| {
          assert ps[i] == here[i] && ps[j] == here[j];
        } else if i >= |here| {
          assert ps[i] == later[i - |here|] && ps[j] == later[j - |here|];
          assert PathBefore(later[i - |here|], later[j - |here|]);
        } else {
          assert ps[i] == here[i] && ps[j] == later[j - |here|];
          assert ps[i][0] == k < ps[j][0];
        }
      }
    }
  }

  lemma {:induction false} PathsAtFieldDecls(v: Version, s: Struct, ambient: string, k: nat, num: Numerics)
    requires k < |s.fields|
    ensures DeclaredOneForOne(v, s, ambient, num, PathsAtField(v, s, ambient, k, num),
                              RegisterField(v, s.fields[k], ambient, num))
    decreases s, |s.fields| - k, 0
  {
    match s.fields[k]
    case Leaf(_, _) =>
      assert ChainAt(s, [k]) == [];
    case Nested(t, body) =>
      var inner := EnterPrefix(v, ambient, t);
      var qs := PathsFrom(v, body, inner, 0, num);
      PathsFromDecls(v, body, inner, 0, num);
      PathsFromSorted(v, body, inner, 0, num);
      assert body.fields[0..] == body.fields;
      forall i | 0 <= i < |qs|
        ensures DeclaredAt(v, s, ambient, [k] + qs[i], num) == DeclaredAt(v, body, inner, qs[i], num)
      {
        StepInto(v, s, ambient, k, qs[i], num);
      }
  }

  /** The paths `ps` name the declarations `ds` one for one. */
  predicate DeclaredOneForOne(v: Version, s: Struct, ambient: string, num: Numerics, ps: seq<Path>, ds: seq<Decl>)
  {
    |ps| == |ds| && forall i :: 0 <= i < |ps| ==> DeclaredAt(v, s, ambient, ps[i], num) == Some(ds[i])
  }

  lemma DeclaredConcat(v: Version, s: Struct, ambient: string, num: Numerics,
                       ps: seq<Path>, ps': seq<Path>, ds: seq<Decl>, ds': seq<Decl>)
    requires DeclaredOneForOne(v, s, ambient, num, ps, ds) && DeclaredOneForOne(v, s, ambient, num, ps', ds')
    ensures DeclaredOneForOne(v, s, ambient, num, ps + ps', ds + ds')
  {
    forall i | 0 <= i < |ps + ps'|
      ensures DeclaredAt(v, s, ambient, (ps + ps')[i], num) == Some((ds + ds')[i])
    {
      if i >= |ps| {
        assert (ps + ps')[i] == ps'[i - |ps|] && (ds + ds')[i] == ds'[i - |ps|];
      }
    }
  }

  /** The accepted paths among the fields `k..` name the declarations of those fields one for one. */
  lemma {:induction false} PathsFromDecls(v: Version, s: Struct, ambient: string, k: nat, num: Numerics)
    requires k <= |s.fields|
    ensures DeclaredOneForOne(v, s, ambient, num, PathsFrom(v, s, ambient, k, num),
                              RegisterList(v, s.fields[k..], ambient, num))
    decreases s, |s.fields| - k, 1
  {
    if k < |s.fields| {
      var here := PathsAtField(v, s, ambient, k, num);
      var later := PathsFrom(v, s, ambient, k + 1, num);
      var dHere := RegisterField(v, s.fields[k], ambient, num);
      var dLater := RegisterList(v, s.fields[k + 1..], ambient, num);
      assert s.fields[k..][0] == s.fields[k] && s.fields[k..][1..] == s.fields[k + 1..];
      assert RegisterList(v, s.fields[k..], ambient, num) == dHere + dLater;
      PathsAtFieldDecls(v, s, ambient, k, num);
      PathsFromDecls(v, s, ambient, k + 1, num);
      DeclaredConcat(v, s, ambient, num, here, later, dHere, dLater);
    } else {
      assert s.fields[k..] == [];
    }
  }

  /** Every accepted leaf at or after field `k` is among the accepted paths from `k`. */
  lemma {:induction false} PathsFromComplete(v: Version, s: Struct, ambient: string, k: nat, num: Numerics, p: Path)
    requires DeclaredAt(v, s, ambient, p, num).Some? && k <= p[0]
    ensures p in PathsFrom(v, s, ambient, k, num)
    decreases s, |s.fields| - k, 1
  {
    var here := PathsAtField(v, s, ambient, k, num);
    var later := PathsFrom(v, s, ambient, k + 1, num);
    assert PathsFrom(v, s, ambient, k, num) == here + later;
    if p[0] > k {
      PathsFromComplete(v, s, ambient, k + 1, num, p);
    } else {
      PathsAtFieldComplete(v, s, ambient, k, num, p);
    }
  }

  /** Every accepted leaf at or below field `k` is among that field's accepted paths. */
  lemma {:induction false} PathsAtFieldComplete(v: Version, s: Struct, ambient: string, k: nat, num: Numerics, p: Path)
    requires DeclaredAt(v, s, ambient, p, num).Some? && p[0] == k
    ensures k < |s.fields| && p in PathsAtField(v, s, ambient, k, num)
    decreases s, |s.fields| - k, 0
  {
    if |p| == 1 {
      assert ChainAt(s, [k]) == [];
      assert p == [k];
    } else {
      var f := s.fields[k];
      var q := p[1..];
      assert p == [k] + q;
      StepInto(v, s, ambient, k, q, num);
      PathsFromComplete(v, f.body, EnterPrefix(v, ambient, f.prefix), 0, num, q);
      var qs := PathsFrom(v, f.body, EnterPrefix(v, ambient, f.prefix), 0, num);
      var i :| 0 <= i < |qs| && qs[i] == q;
      assert PathsAtField(v, s, ambient, k, num)[i] == p;
    }
  }

  /**
    The registration pass declares exactly the leaves the declaration rules accept, each
    under the name its path's prefixes give it: a leaf that is skipped takes nothing else
    with it, and nothing is declared that no leaf asked for.
   */
  lemma RegistrationExact(v: Version, s: Struct, num: Numerics)
    ensures forall p :: DeclaredAt(v, s, "", p, num).Some? ==>
      DeclaredAt(v, s, "", p, num).value in DefineFlags(v, s, num)
    ensures forall d :: d in DefineFlags(v, s, num) ==> exists p :: DeclaredAt(v, s, "", p, num) == Some(d)
    ensures var ps, ds := AcceptedPaths(v, s, num), DefineFlags(v, s, num);
      && |ps| == |ds|
      && (forall i :: 0 <= i < |ps| ==> DeclaredAt(v, s, "", ps[i], num) == Some(ds[i]))
      && InFieldOrder(ps)
      && (forall p :: DeclaredAt(v, s, "", p, num).Some? ==> p in ps)
  {
    assert s.fields[0..] == s.fields;
    PathsFromDecls(v, s, "", 0, num);
    PathsFromSorted(v, s, "", 0, num);
    forall p | DeclaredAt(v, s, "", p, num).Some?
      ensures p in AcceptedPaths(v, s, num)
    {
      PathsFromComplete(v, s, "", 0, num, p);
    }
    forall p | DeclaredAt(v, s, "", p, num).Some?
      ensures DeclaredAt(v, s, "", p, num).value in DefineFlags(v, s, num)
    {
      DeclaredIsRegistered(v, s, "", num, p);
    }
    forall d | d in DefineFlags(v, s, num)
      ensures exists p :: DeclaredAt(v, s, "", p, num) == Some(d)
    {
      RegisteredIsDeclared(v, s, "", num, d);
    }
  }

  /** The position of an accepted leaf among the accepted paths, which is also the position of its declaration. */
  lemma IndexOfAccepted(v: Version, s: Struct, num: Numerics, p: Path) returns (i: nat)
    requires DeclaredAt(v, s, "", p, num).Some?
    ensures i < |AcceptedPaths(v, s, num)| && AcceptedPaths(v, s, num)[i] == p
    ensures i < |DefineFlags(v, s, num)| && DefineFlags(v, s, num)[i] == DeclaredAt(v, s, "", p, num).value
  {
    RegistrationExact(v, s, num);
    var ps := AcceptedPaths(v, s, num);
    i :| 0 <= i < |ps| && ps[i] == p;
  }

  /**
    coil.go:85-126: a leaf declares nothing exactly when it has no name, its `type` tag is not
    one the walker knows, or its default does not parse for that type; nothing is reported.
   */
  lemma DeclareLeafSkips(prefix: string, tags: Tags, num: Numerics)
    ensures DeclareLeaf(Current, prefix, tags, num).None? <==>
      || tags.name == ""
      || tags.typeTag !in {"string", "[]string", "int", "bool", "float32", "float64", "duration"}
      || (tags.typeTag == "int" && ParseInt(tags.default).None?)
      || (tags.typeTag == "float32" && num.parseFloat32(tags.default).None?)
      || (tags.typeTag == "float64" && num.parseFloat64(tags.default).None?)
      || (tags.typeTag == "duration" && num.parseDuration(tags.default).None?)
  {
  }

  /**
    coil.go:98: a `[]string` default is the comma-separated list of the tag: joining the items
    with commas gives the tag back, and no item contains a comma.
   */
  lemma SliceDefaultIsSplit(default: string, num: Numerics)
    ensures DefaultValue("[]string", default, num).Some?
    ensures var items := DefaultValue("[]string", default, num).value.items;
      && JoinWith(items, ',') == default
      && |items| >= 1
      && (forall i :: 0 <= i < |items| ==> ',' !in items[i])
  {
    JoinSplit(default, ',');
    SplitPieces(default, ',');
  }

  /** main.go:59-63: the older walker also takes a bool default as true only for "true". */
  lemma LegacyBoolExactlyTrue(default: string, num: Numerics)
    ensures LegacyDefaultValue("bool", default, num) == Some(BoolFlag(default == "true"))
    ensures LegacyDefaultValue("bool", default, num) == Some(BoolFlag(true)) <==> default == "true"
  {
  }
}

=== FILE: scenarios.dfy ===
/**
  Concrete configuration structs in the shape of the repository's own examples: nested prefix
  tags, two copies of the database block under different prefixes, a bool field tagged as a
  string, and a duration field that is declared but never assigned.
 */
module Scenarios {
  import opened Wrappers
  import opened Strconv
  import opened Schema
  import opened Naming
  import opened Registration
  import opened Assignment
  import opened Leaves

  /**
    The embedded `Config`: an untagged pointer to the parser. Neither pass reads or writes it;
    `generate` sets it before the fill, which the model records as the outcome's `parser`
    rather than in this leaf.
   */
  const Base := Struct([Leaf(Tags("", "", "", ""), OtherCell("*viper.Viper", "nil"))], false)

  function Str(typeTag: string, name: string, default: string, desc: string): Field
  {
    Leaf(Tags(typeTag, name, default, desc), StrCell(""))
  }

  const Inner := Struct([Str("string", "field", "inner_default", "Inner field")], false)
  const Outer := Struct([Str("string", "field", "outer_default", "Outer field"), Nested("inner", Inner)], false)
  const NestedPrefix := Struct([Nested("", Base), Nested("outer", Outer)], false)

  /** Two levels of prefix tags give `outer_field` and `outer_inner_field`. */
  lemma NestedPrefixNames(num: Numerics)
    ensures DefineFlags(Current, NestedPrefix, num)
         == [Decl("outer_field", StringFlag("outer_default"), "Outer field"),
             Decl("outer_inner_field", StringFlag("inner_default"), "Inner field")]
  {
    var inner := [Decl("outer_inner_field", StringFlag("inner_default"), "Inner field")];
    var outer := Decl("outer_field", StringFlag("outer_default"), "Outer field");
    assert "outer" + "_" + "inner" == "outer_inner";
    assert "outer_inner" + "_" + "field" == "outer_inner_field";
    assert "outer" + "_" + "field" == "outer_field";
    assert RegisterList(Current, Base.fields[1..], "", num) == [];
    assert RegisterList(Current, Base.fields, "", num) == [];
    assert RegisterList(Current, Inner.fields[1..], "outer_inner", num) == [];
    assert RegisterList(Current, Inner.fields, "outer_inner", num) == inner;
    assert RegisterList(Current, Outer.fields[1..][1..], "outer", num) == [];
    assert RegisterList(Current, Outer.fields[1..], "outer", num) == inner;
    assert RegisterList(Current, Outer.fields, "outer", num) == [outer] + inner;
    assert RegisterList(Current, NestedPrefix.fields[1..][1..], "", num) == [];
    assert RegisterList(Current, NestedPrefix.fields[1..], "", num) == [outer] + inner;
    assert RegisterList(Current, NestedPrefix.fields, "", num) == [] + ([outer] + inner);
    assert [] + ([outer] + inner) == [outer] + inner;
  }

  /** The leaf at `[1, 0]` of `NestedPrefix` is the outer field, under the chain `outer`. */
  lemma OuterLeafAt()
    ensures FieldAt(NestedPrefix, [1, 0]) == Some(Outer.fields[0])
    ensures ChainAt(NestedPrefix, [1, 0]) == ["outer"]
  {
    assert [1, 0][1..] == [0];
    assert FieldAt(Outer, [0]) == Some(Outer.fields[0]);
    assert ChainAt(Outer, [0]) == [];
  }

  /** The leaf at `[1, 1, 0]` of `NestedPrefix` is the inner field, under `outer`, `inner`. */
  lemma InnerLeafAt()
    ensures FieldAt(NestedPrefix, [1, 1, 0]) == Some(Inner.fields[0])
    ensures ChainAt(NestedPrefix, [1, 1, 0]) == ["outer", "inner"]
  {
    assert [1, 1, 0][1..] == [1, 0] && [1, 0][1..] == [0];
    assert FieldAt(Inner, [0]) == Some(Inner.fields[0]);
    assert FieldAt(Outer, [1, 0]) == FieldAt(Inner, [0]);
    assert ChainAt(Inner, [0]) == [];
    assert ChainAt(Outer, [1, 0]) == ["inner"] + [];
  }

  /** The nested fields are read under their composed names and fall back to their defaults. */
  lemma NestedPrefixValues(r: Resolver, num: Numerics, outer: string, inner: string)
    requires r.getString("outer_field") == outer && r.getString("outer_inner_field") == inner
    ensures FieldAt(SetProperties(Current, NestedPrefix, r, num).value, [1, 0])
         == Some(Leaf(Tags("string", "field", "outer_default", "Outer field"),
                      StrCell(if outer == "" then "outer_default" else outer)))
    ensures FieldAt(SetProperties(Current, NestedPrefix, r, num).value, [1, 1, 0])
         == Some(Leaf(Tags("string", "field", "inner_default", "Inner field"),
                      StrCell(if inner == "" then "inner_default" else inner)))
  {
    assert "outer" + "_" + "inner" == "outer_inner";
    assert "outer_inner" + "_" + "field" == "outer_inner_field";
    assert "outer" + "_" + "field" == "outer_field";
    OuterLeafAt();
    InnerLeafAt();
    assert ["outer", "inner"][1..] == ["inner"] && ["inner"][1..] == [] && ["outer"][1..] == [];
    assert PrefixAt(Current, NestedPrefix, "", [1, 0]) == "outer";
    assert PrefixAt(Current, NestedPrefix, "", [1, 1, 0]) == "outer_inner";
    LeafValue(Current, NestedPrefix, r, num, [1, 0]);
    LeafValue(Current, NestedPrefix, r, num, [1, 1, 0]);
  }

  /** configs.go:13-22. `dbdebug` is a bool field whose `type` tag says string. */
  const Database := Struct([
    Str("string", "dbhost", "localhost", "Database hostname"),
    Str("string", "dbuser", "", "Database username"),
    Str("string", "dbname", "", "Database name"),
    Str("string", "dbpass", "", "Database password"),
    Str("string", "dbssl", "disable", "Database SSL mode"),
    Leaf(Tags("int", "dbport", "5432", "Database port number"), IntCell(0)),
    Leaf(Tags("string", "dbdebug", "", "Enable database debug mode"), BoolCell(false))], false)

  const PrimaryReplica := Struct([Nested("", Base), Nested("primary", Database), Nested("replica", Database)], false)

  /** The leaf at `[i, j]` of `PrimaryReplica` is the database field `j`, under one prefix tag. */
  lemma DatabaseLeafAt(i: nat, j: nat)
    requires 1 <= i <= 2 && j < |Database.fields|
    ensures FieldAt(PrimaryReplica, [i, j]) == Some(Database.fields[j])
    ensures PrefixAt(Current, PrimaryReplica, "", [i, j]) == PrimaryReplica.fields[i].prefix
  {
    assert [i, j][1..] == [j];
    assert PrimaryReplica.fields[i] == Nested(PrimaryReplica.fields[i].prefix, Database);
    assert FieldAt(Database, [j]) == Some(Database.fields[j]);
    assert ChainAt(Database, [j]) == [];
    assert ChainAt(PrimaryReplica, [i, j]) == [PrimaryReplica.fields[i].prefix] + [];
    var tag := PrimaryReplica.fields[i].prefix;
    assert [tag][1..] == [];
    assert ComposePrefix("", tag) == tag;
    assert FoldPrefix("", [tag]) == FoldPrefix(tag, []);
  }

  /** The leaf at `[i, j]` is filled as the database leaf `j`, read under the prefix of copy `i`. */
  lemma DatabaseLeafValue(r: Resolver, num: Numerics, i: nat, j: nat)
    requires 1 <= i <= 2 && j < |Database.fields|
    ensures var f := Database.fields[j];
      FieldAt(SetProperties(Current, PrimaryReplica, r, num).value, [i, j])
        == Some(Leaf(f.tags, AssignCell(Current, f.cell, f.tags,
                                        ReadKey(PrimaryReplica.fields[i].prefix, f.tags.name), r, num)))
  {
    DatabaseLeafAt(i, j);
    LeafValue(Current, PrimaryReplica, r, num, [i, j]);
  }

  /** The leaf at `[i, j]` is declared as the database leaf `j` under the prefix of copy `i`. */
  lemma DatabaseDeclared(num: Numerics, i: nat, j: nat)
    requires 1 <= i <= 2 && j < |Database.fields|
    ensures DeclaredAt(Current, PrimaryReplica, "", [i, j], num)
         == DeclareLeaf(Current, PrimaryReplica.fields[i].prefix, Database.fields[j].tags, num)
  {
    DatabaseLeafAt(i, j);
  }

  /** The port default of configs.go:20 parses as an integer. */
  lemma PortDefault(num: Numerics)
    ensures DefaultValue("int", "5432", num) == Some(Int64Flag(5432))
  {
    assert DecimalValue("5432") == 5432 by {
      assert "5432"[..3] == "543" && "543"[..2] == "54" && "54"[..1] == "5";
    }
  }

  /** The same block under two prefixes declares two distinct host flags and two port flags. */
  lemma PrimaryReplicaDeclared(num: Numerics)
    ensures DeclaredAt(Current, PrimaryReplica, "", [1, 0], num)
         == Some(Decl("primary_dbhost", StringFlag("localhost"), "Database hostname"))
    ensures DeclaredAt(Current, PrimaryReplica, "", [2, 0], num)
         == Some(Decl("replica_dbhost", StringFlag("localhost"), "Database hostname"))
    ensures DeclaredAt(Current, PrimaryReplica, "", [1, 5], num)
         == Some(Decl("primary_dbport", Int64Flag(5432), "Database port number"))
    ensures DeclaredAt(Current, PrimaryReplica, "", [2, 5], num)
         == Some(Decl("replica_dbport", Int64Flag(5432), "Database port number"))
  {
    PrimaryHostDeclared(num);
    ReplicaHostDeclared(num);
    PrimaryPortDeclared(num);
    ReplicaPortDeclared(num);
  }

  lemma PrimaryHostDeclared(num: Numerics)
    ensures DeclaredAt(Current, PrimaryReplica, "", [1, 0], num)
         == Some(Decl("primary_dbhost", StringFlag("localhost"), "Database hostname"))
  {
    DatabaseDeclared(num, 1, 0);
    assert "primary" + "_" + "dbhost" == "primary_dbhost";
  }

  lemma ReplicaHostDeclared(num: Numerics)
    ensures DeclaredAt(Current, PrimaryReplica, "", [2, 0], num)
         == Some(Decl("replica_dbhost", StringFlag("localhost"), "Database hostname"))
  {
    DatabaseDeclared(num, 2, 0);
    assert "replica" + "_" + "dbhost" == "replica_dbhost";
  }

  lemma PrimaryPortDeclared(num: Numerics)
    ensures DeclaredAt(Current, PrimaryReplica, "", [1, 5], num)
         == Some(Decl("primary_dbport", Int64Flag(5432), "Database port number"))
  {
    DatabaseDeclared(num, 1, 5);
    PortDefault(num);
    assert "primary" + "_" + "dbport" == "primary_dbport";
  }

  lemma ReplicaPortDeclared(num: Numerics)
    ensures DeclaredAt(Current, PrimaryReplica, "", [2, 5], num)
         == Some(Decl("replica_dbport", Int64Flag(5432), "Database port number"))
  {
    DatabaseDeclared(num, 2, 5);
    PortDefault(num);
    assert "replica" + "_" + "dbport" == "replica_dbport";
  }

  /** Each copy of the block reads its own keys, so the two hosts and ports can differ. */
  lemma PrimaryReplicaValues(r: Resolver, num: Numerics)
    requires r.getString("primary_dbhost") == "primary-host.example.com"
    requires r.getString("replica_dbhost") == "replica-host.example.com"
    requires r.isSet("primary_dbport") && r.getInt64("primary_dbport") == 5433
    requires r.isSet("replica_dbport") && r.getInt64("replica_dbport") == 5434
    ensures var out := SetProperties(Current, PrimaryReplica, r, num).value;
      && FieldAt(out, [1, 0]) == Some(Leaf(Database.fields[0].tags, StrCell("primary-host.example.com")))
      && FieldAt(out, [2, 0]) == Some(Leaf(Database.fields[0].tags, StrCell("replica-host.example.com")))
      && FieldAt(out, [1, 5]) == Some(Leaf(Database.fields[5].tags, IntCell(5433)))
      && FieldAt(out, [2, 5]) == Some(Leaf(Database.fields[5].tags, IntCell(5434)))
  {
    HostValues(r, num);
    PortValues(r, num);
  }

  lemma HostValues(r: Resolver, num: Numerics)
    requires r.getString("primary_dbhost") == "primary-host.example.com"
    requires r.getString("replica_dbhost") == "replica-host.example.com"
    ensures var out := SetProperties(Current, PrimaryReplica, r, num).value;
      && FieldAt(out, [1, 0]) == Some(Leaf(Database.fields[0].tags, StrCell("primary-host.example.com")))
      && FieldAt(out, [2, 0]) == Some(Leaf(Database.fields[0].tags, StrCell("replica-host.example.com")))
  {
    assert "primary" + "_" + "dbhost" == "primary_dbhost";
    assert "replica" + "_" + "dbhost" == "replica_dbhost";
    DatabaseLeafValue(r, num, 1, 0);
    DatabaseLeafValue(r, num, 2, 0);
  }

  lemma PortValues(r: Resolver, num: Numerics)
    requires r.isSet("primary_dbport") && r.getInt64("primary_dbport") == 5433
    requires r.isSet("replica_dbport") && r.getInt64("replica_dbport") == 5434
    ensures var out := SetProperties(Current, PrimaryReplica, r, num).value;
      && FieldAt(out, [1, 5]) == Some(Leaf(Database.fields[5].tags, IntCell(5433)))
      && FieldAt(out, [2, 5]) == Some(Leaf(Database.fields[5].tags, IntCell(5434)))
  {
    assert "primary" + "_" + "dbport" == "primary_dbport";
    assert "replica" + "_" + "dbport" == "replica_dbport";
    DatabaseLeafValue(r, num, 1, 5);
    DatabaseLeafValue(r, num, 2, 5);
  }

  /**
    configs.go:21: the `type` tag decides the flag (a string flag with an empty default), the Go
    kind decides the assignment (a bool, false unless the key is set).
   */
  lemma DebugKindAndTagDisagree(r: Resolver, num: Numerics)
    requires !r.isSet("primary_dbdebug")
    ensures DeclaredAt(Current, PrimaryReplica, "", [1, 6], num)
         == Some(Decl("primary_dbdebug", StringFlag(""), "Enable database debug mode"))
    ensures FieldAt(SetProperties(Current, PrimaryReplica, r, num).value, [1, 6])
         == Some(Leaf(Database.fields[6].tags, BoolCell(false)))
  {
    DatabaseDeclared(num, 1, 6);
    assert "primary" + "_" + "dbdebug" == "primary_dbdebug";
    DatabaseLeafValue(r, num, 1, 6);
  }

  const Timeouts := Struct([Leaf(Tags("duration", "timeout", "5s", "Request timeout"), OtherCell("time.Duration", "0"))], false)

  /** A duration field is declared as a duration flag, but the assignment pass never writes it. */
  lemma DurationDeclaredNotAssigned(r: Resolver, num: Numerics)
    requires num.parseDuration("5s") == Some(5000000000)
    ensures DefineFlags(Current, Timeouts, num) == [Decl("timeout", DurationFlag(5000000000), "Request timeout")]
    ensures SetProperties(Current, Timeouts, r, num).value == Timeouts
    ensures SetProperties(Current, Timeouts, r, num).events == []
  {
  }
}

=== FILE: schema.dfy ===
/**
  The explicit schema that replaces Go reflection. A configuration struct is a sequence of
  fields; a field is either a nested struct (with its optional `prefix` tag) or a leaf with its
  `type`, `name`, `default` and `desc` tags and its current value. The constructor of the value
  (the `Cell`) is the field's Go kind, which is independent of the `type` tag: the registration
  pass switches on the tag, the assignment pass on the kind.

  A struct value is at the same time the type the registration pass walks and the instance the
  assignment pass fills, so the two can never disagree in shape.
 */
module Schema {
  import opened Wrappers
  import opened Strconv

  /**
    Which of the two walkers of the repository is meant: the current one in coil.go, with
    namespace prefixes, or the older prefix-free one in main.go.
   */
  datatype Version = Current | Legacy

  /** The struct tags of one field; a missing tag reads as "" (`field.Tag.Get`). */
  datatype Tags = Tags(typeTag: string, name: string, default: string, desc: string)

  /**
    The current value of a leaf field, by Go kind. `OtherCell` stands for every kind the
    assignment pass has no case for (int64 and so `time.Duration`, slices such as `[]string`,
    pointers, maps, ...); `goType` names the Go type and `data` renders its current value.
   */
  datatype Cell =
    | StrCell(s: string)
    | BoolCell(b: bool)
    | IntCell(i: int64)
    | Float32Cell(f: real)
    | Float64Cell(f: real)
    | OtherCell(goType: string, data: string)

  datatype Field =
    | Nested(prefix: string, body: Struct)
    | Leaf(tags: Tags, cell: Cell)

  /** `hasParse` is true when the struct's pointer method set has a `Parse` method. */
  datatype Struct = Struct(fields: seq<Field>, hasParse: bool)

  /** Field indices from the root struct down to a field. */
  type Path = seq<nat>

  /** The field reached by following `p` from `s`. */
  function FieldAt(s: Struct, p: Path): Option<Field>
    decreases s
  {
    if |p| == 0 || p[0] >= |s.fields| then None
    else if |p| == 1 then Some(s.fields[p[0]])
    else match s.fields[p[0]]
      case Nested(_, body) => FieldAt(body, p[1..])
      case Leaf(_, _) => None
  }

  /** The struct level at `p`: the root for the empty path, else the body of a nested field. */
  function LevelAt(s: Struct, p: Path): Option<Struct>
  {
    if |p| == 0 then Some(s)
    else match FieldAt(s, p)
      case Some(Nested(_, body)) => Some(body)
      case _ => None
  }

  /** There is a struct level at `p` and it has a `Parse` hook. */
  predicate HookAt(s: Struct, p: Path)
  {
    LevelAt(s, p).Some? && LevelAt(s, p).value.hasParse
  }

  /** Descending one level: the level below the nested field at index `k`. */
  lemma LevelStep(s: Struct, k: nat, q: Path)
    ensures LevelAt(s, [k] + q)
         == if k < |s.fields| && s.fields[k].Nested? then LevelAt(s.fields[k].body, q) else None
  {
    assert ([k] + q)[1..] == q;
  }

  /** The `prefix` tags of the nested fields passed through on the way to the field at `p`. */
  function ChainAt(s: Struct, p: Path): seq<string>
    decreases s
  {
    if |p| <= 1 || p[0] >= |s.fields| then []
    else match s.fields[p[0]]
      case Nested(tag, body) => [tag] + ChainAt(body, p[1..])
      case Leaf(_, _) => []
  }

  /** Two cells hold values of the same Go kind (and, for other kinds, the same type). */
  predicate SameKind(a: Cell, b: Cell)
  {
    match (a, b)
    case (StrCell(_), StrCell(_)) => true
    case (BoolCell(_), BoolCell(_)) => true
    case (IntCell(_), IntCell(_)) => true
    case (Float32Cell(_), Float32Cell(_)) => true
    case (Float64Cell(_), Float64Cell(_)) => true
    case (OtherCell(t, _), OtherCell(t', _)) => t == t'
    case _ => false
  }

  /** Same fields, tags, prefixes, kinds and hooks; only the values of leaves may differ. */
  predicate SameShape(a: Struct, b: Struct)
    decreases a
  {
    && a.hasParse == b.hasParse
    && |a.fields| == |b.fields|
    && forall i :: 0 <= i < |a.fields| ==> SameShapeField(a.fields[i], b.fields[i])
  }

  predicate SameShapeField(f: Field, g: Field)
    decreases f
  {
    match (f, g)
    case (Nested(t, x), Nested(t', y)) => t == t' && SameShape(x, y)
    case (Leaf(tags, c), Leaf(tags', c')) => tags == tags' && SameKind(c, c')
    case _ => false
  }

  /**
    What the assignment pass can ask of the resolver (viper in the source). Flags,
    environment variables and the configuration file are behind these functions.
   */
  datatype Resolver = Resolver(
    isSet: string -> bool,
    getString: string -> string,
    getBool: string -> bool,
    getInt64: string -> int64,
    getFloat64: string -> real)

  /**
    The floating-point and duration conversions the walker calls but does not define:
    `strconv.ParseFloat(s, 32)`, `strconv.ParseFloat(s, 64)` and `time.ParseDuration`
    (None for a non-nil error, durations in nanoseconds), and the rounding of Go's
    `float32(x)` and `float64(x)` conversions.
   */
  datatype Numerics = Numerics(
    parseFloat32: string -> Option<real>,
    parseFloat64: string -> Option<real>,
    parseDuration: string -> Option<int64>,
    toFloat32: real -> real,
    toFloat64: real -> real)

  /** The typed default of a declared flag, one constructor per pflag definer. */
  datatype FlagValue =
    | StringFlag(s: string)
    | StringSliceFlag(items: seq<string>)
    | Int64Flag(i: int64)
    | BoolFlag(b: bool)
    | Float32Flag(f: real)
    | Float64Flag(f: real)
    | DurationFlag(ns: int64)

  /** One flag declaration: name, typed default, usage text. */
  datatype Decl = Decl(name: string, value: FlagValue, usage: string)

  /** The observable steps of the assignment pass: a resolver consultation, a hook call. */
  datatype Event = Read(path: Path, key: string) | Hook(path: Path)

  /** A value together with the events produced while computing it. */
  datatype Traced<T> = Traced(value: T, events: seq<Event>)
}

=== FILE: strconv.dfy ===
/**
  Base-10 integer parsing as Go's `strconv.ParseInt(s, 10, 64)` does it, which is also what
  `strconv.Atoi` does on a 64-bit platform: an optional `+` or `-`, then one or more ASCII
  digits (no underscores, no base prefix), and a range check against the 64-bit signed
  bounds. Anything else is an error, reported here as None.
 */
module Strconv {
  import opened Wrappers

  const MinInt64: int := -0x8000_0000_0000_0000
  const MaxInt64: int := 0x7fff_ffff_ffff_ffff

  /** Go's `int64`, and Go's `int` on a 64-bit platform. */
  type int64 = x: int | MinInt64 <= x <= MaxInt64

  predicate IsDigit(c: char) {
    '0' <= c <= '9'
  }

  predicate AllDigits(s: string) {
    forall i :: 0 <= i < |s| ==> IsDigit(s[i])
  }

  /** The value of a run of decimal digits, most significant first. */
  function DecimalValue(ds: string): nat
    requires AllDigits(ds)
  {
    if |ds| == 0 then 0
    else DecimalValue(ds[..|ds| - 1]) * 10 + ((ds[|ds| - 1] as int) - ('0' as int))
  }

  /** A non-empty run of digits, optionally after one `+` or `-`. */
  predicate SignedDigits(s: string)
  {
    || (|s| > 0 && AllDigits(s))
    || (|s| > 1 && (s[0] == '+' || s[0] == '-') && AllDigits(s[1..]))
  }

  /** The value a signed run of digits denotes, before any range check. */
  function SignedValue(s: string): int
    requires SignedDigits(s)
  {
    if AllDigits(s) then DecimalValue(s)
    else if s[0] == '-' then -(DecimalValue(s[1..]) as int)
    else DecimalValue(s[1..])
  }

  /** `strconv.ParseInt(s, 10, 64)`; None stands for a non-nil error. */
  function ParseInt(s: string): (r: Option<int64>)
    ensures r.Some? ==> |s| > 0 && (IsDigit(s[0]) || s[0] == '+' || s[0] == '-')
    ensures r.Some? ==> AllDigits(s[1..]) && SignedDigits(s)
    ensures r.Some? && IsDigit(s[0]) ==> r.value == DecimalValue(s)
    ensures r.Some? && s[0] == '-' ==> r.value == -(DecimalValue(s[1..]) as int)
    ensures r.Some? && s[0] == '+' ==> r.value == DecimalValue(s[1..])
    ensures SignedDigits(s) && MinInt64 <= SignedValue(s) <= MaxInt64 ==> r == Some(SignedValue(s))
  {
    if |s| == 0 then None
    else
      var signed := s[0] == '+' || s[0] == '-';
      var digits := if signed then s[1..] else s;
      if |digits| == 0 || !AllDigits(digits) then None
      else
        var v: int := if s[0] == '-' then -(DecimalValue(digits) as int) else DecimalValue(digits) as int;
        if MinInt64 <= v <= MaxInt64 then Some(v) else None
  }

  /** The shortest decimal rendering of a natural number. */
  function FormatNat(n: nat): (s: string)
    ensures |s| > 0 && AllDigits(s)
    ensures DecimalValue(s) == n
  {
    var d := ['0' + ((n % 10) as char)];
    if n < 10 then d
    else
      var s := FormatNat(n / 10) + d;
      assert s[..|s| - 1] == FormatNat(n / 10);
      s
  }

  /** `strconv.FormatInt(n, 10)`: a leading `-` for negatives, then the digits. */
  function FormatInt(n: int): string
  {
    if n < 0 then "-" + FormatNat(-n) else FormatNat(n)
  }

  /** Every 64-bit integer survives formatting and re-parsing. */
  lemma ParseFormat(n: int64)
    ensures ParseInt(FormatInt(n)) == Some(n)
  {
    var s := FormatInt(n);
    if n < 0 {
      var m: nat := -(n as int);
      var ds := FormatNat(m);
      assert s[0] == '-';
      assert s[1..] == ds;
      assert DecimalValue(ds) == m;
    } else {
      var ds := FormatNat(n);
      assert s == ds;
      assert IsDigit(ds[0]);
      assert ds[0] != '+' && ds[0] != '-';
    }
  }
}

=== FILE: strings.dfy ===
/**
  The two operations of Go's `strings` package that the configuration walker relies on:
  `strings.Split` with a one-character separator (list-of-text defaults) and `strings.Join`
  (the underscore-joined namespace prefixes).
 */
module Strings {

  /** `strings.Join(parts, string(sep))`: the parts with `sep` between consecutive ones. */
  function JoinWith(parts: seq<string>, sep: char): string
  {
    if |parts| == 0 then ""
    else if |parts| == 1 then parts[0]
    else JoinWith(parts[..|parts| - 1], sep) + [sep] + parts[|parts| - 1]
  }

  /**
    `strings.Split(s, string(sep))`: the maximal pieces of `s` between occurrences of `sep`.
    There is always one more piece than there are separators, so the empty string splits
    into the single piece "".
   */
  function Split(s: string, sep: char): (parts: seq<string>)
    ensures |parts| >= 1
  {
    if |s| == 0 then [""]
    else
      var rest := Split(s[..|s| - 1], sep);
      var c := s[|s| - 1];
      if c == sep then rest + [""]
      else rest[..|rest| - 1] + [rest[|rest| - 1] + [c]]
  }

  /** How many times `c` occurs in `s`. */
  function Occurrences(s: string, c: char): nat
  {
    if |s| == 0 then 0
    else Occurrences(s[..|s| - 1], c) + (if s[|s| - 1] == c then 1 else 0)
  }

  /** No piece contains the separator, and there is one piece more than there are separators. */
  lemma {:induction false} SplitPieces(s: string, sep: char)
    ensures forall i :: 0 <= i < |Split(s, sep)| ==> sep !in Split(s, sep)[i]
    ensures |Split(s, sep)| == Occurrences(s, sep) + 1
  {
    if |s| > 0 {
      var init := s[..|s| - 1];
      SplitPieces(init, sep);
      var rest := Split(init, sep);
      var c := s[|s| - 1];
      if c != sep {
        var last := rest[|rest| - 1];
        assert sep !in last;
        assert sep !in last + [c];
      }
    }
  }

  /** Joining the pieces back with the separator gives the original text. */
  lemma {:induction false} JoinSplit(s: string, sep: char)
    ensures JoinWith(Split(s, sep), sep) == s
  {
    if |s| > 0 {
      var init := s[..|s| - 1];
      JoinSplit(init, sep);
      JoinSplitSnoc(init, s[|s| - 1], sep);
      assert s == init + [s[|s| - 1]];
    }
  }

  /** The inductive step of `JoinSplit`: one more character. */
  lemma JoinSplitSnoc(init: string, c: char, sep: char)
    requires JoinWith(Split(init, sep), sep) == init
    ensures JoinWith(Split(init + [c], sep), sep) == init + [c]
  {
    var rest := Split(init, sep);
    SplitSnoc(init, c, sep);
    if c == sep {
      JoinSnocEmpty(rest, sep);
    } else {
      JoinExtendLast(rest, c, sep);
    }
  }

  /** An empty last part adds just a separator to the join. */
  lemma JoinSnocEmpty(parts: seq<string>, sep: char)
    requires |parts| >= 1
    ensures JoinWith(parts + [""], sep) == JoinWith(parts, sep) + [sep]
  {
    assert (parts + [""])[..|parts|] == parts;
    assert JoinWith(parts, sep) + [sep] + "" == JoinWith(parts, sep) + [sep];
  }

  /** Extending the last part extends the join by the same text. */
  lemma JoinExtendLast(parts: seq<string>, c: char, sep: char)
    requires |parts| >= 1
    ensures JoinWith(parts[..|parts| - 1] + [parts[|parts| - 1] + [c]], sep) == JoinWith(parts, sep) + [c]
  {
    var init, last := parts[..|parts| - 1], parts[|parts| - 1];
    var ext := init + [last + [c]];
    assert ext[..|ext| - 1] == init && ext[|ext| - 1] == last + [c];
    if |parts| > 1 {
      var j := JoinWith(init, sep);
      assert JoinWith(ext, sep) == j + [sep] + (last + [c]);
      assert JoinWith(parts, sep) == j + [sep] + last;
      assert j + [sep] + (last + [c]) == (j + [sep] + last) + [c];
    }
  }

  /** One more character either starts a new piece (the separator) or extends the last one. */
  lemma SplitSnoc(s: string, c: char, sep: char)
    ensures var ps := Split(s, sep);
      Split(s + [c], sep) == if c == sep then ps + [""] else ps[..|ps| - 1] + [ps[|ps| - 1] + [c]]
  {
    assert (s + [c])[..|s + [c]| - 1] == s;
  }

  /** Appending separator-free text only extends the last piece. */
  lemma {:induction false} SplitAppendPlain(a: string, b: string, sep: char)
    requires sep !in b
    ensures var pa := Split(a, sep);
      Split(a + b, sep) == pa[..|pa| - 1] + [pa[|pa| - 1] + b]
    decreases |b|
  {
    var pa := Split(a, sep);
    if |b| == 0 {
      assert a + b == a;
      assert pa[|pa| - 1] + b == pa[|pa| - 1];
      assert pa[..|pa| - 1] + [pa[|pa| - 1]] == pa;
    } else {
      var b', c := b[..|b| - 1], b[|b| - 1];
      assert b == b' + [c];
      assert sep !in b' by {
        forall i | 0 <= i < |b'| ensures b'[i] != sep {
          assert b'[i] == b[i];
        }
      }
      SplitAppendPlain(a, b', sep);
      SplitExtendLast(a + b', pa[..|pa| - 1], pa[|pa| - 1] + b', c, sep);
      SnocAssociative(a, b', c);
      SnocAssociative(pa[|pa| - 1], b', c);
    }
  }

  /** Appending a character after a concatenation is appending it to the second operand. */
  lemma SnocAssociative(x: string, y: string, c: char)
    ensures (x + y) + [c] == x + (y + [c])
  {
  }

  /** A plain character appended to the text is appended to the last piece. */
  lemma SplitExtendLast(x: string, init: seq<string>, last: string, c: char, sep: char)
    requires c != sep && Split(x, sep) == init + [last]
    ensures Split(x + [c], sep) == init + [last + [c]]
  {
    var rest := Split(x, sep);
    assert rest[..|rest| - 1] == init && rest[|rest| - 1] == last;
    SplitSnoc(x, c, sep);
  }

  /** Splitting a join of separator-free parts recovers the parts. */
  lemma {:induction false} SplitJoin(parts: seq<string>, sep: char)
    requires |parts| >= 1
    requires forall i :: 0 <= i < |parts| ==> sep !in parts[i]
    ensures Split(JoinWith(parts, sep), sep) == parts
    decreases |parts|
  {
    var last := parts[|parts| - 1];
    assert sep !in last;
    if |parts| == 1 {
      SplitAppendPlain("", last, sep);
      assert "" + last == last;
    } else {
      var init := parts[..|parts| - 1];
      assert forall i :: 0 <= i < |init| ==> init[i] == parts[i];
      SplitJoin(init, sep);
      assert init + [last] == parts;
      SplitJoinStep(init, last, sep);
    }
  }

  /** The inductive step of `SplitJoin`: one more separator-free part. */
  lemma SplitJoinStep(init: seq<string>, last: string, sep: char)
    requires |init| >= 1 && sep !in last
    requires Split(JoinWith(init, sep), sep) == init
    ensures Split(JoinWith(init + [last], sep), sep) == init + [last]
  {
    var j := JoinWith(init, sep);
    assert (init + [last])[..|init|] == init;
    assert JoinWith(init + [last], sep) == (j + [sep]) + last;
    SplitSnoc(j, sep, sep);
    var ps := Split(j + [sep], sep);
    assert ps == init + [""];
    assert ps[..|ps| - 1] == init && ps[|ps| - 1] == "";
    SplitAppendPlain(j + [sep], last, sep);
    assert "" + last == last;
  }
}

=== FILE: values.dfy ===
/**
  What the assignment pass does to a single leaf, compared with what the registration pass
  declared for it: the precedence between a resolved value, the `default` tag and the field's
  prior value, and the agreement between the registered default and the assigned default.
 */
module Values {
  import opened Wrappers
  import opened Strconv
  import opened Schema
  import opened Registration
  import opened Assignment

  /** The `type` tag that declares a flag of the same kind as the field. */
  predicate TagFitsKind(typeTag: string, c: Cell)
  {
    match c
    case StrCell(_) => typeTag == "string"
    case BoolCell(_) => typeTag == "bool"
    case IntCell(_) => typeTag == "int"
    case Float32Cell(_) => typeTag == "float32"
    case Float64Cell(_) => typeTag == "float64"
    case OtherCell(_, _) => false
  }

  /** The field holds the typed default of the flag. */
  predicate Holds(c: Cell, x: FlagValue)
  {
    match (c, x)
    case (StrCell(s), StringFlag(t)) => s == t
    case (BoolCell(b), BoolFlag(b')) => b == b'
    case (IntCell(i), Int64Flag(j)) => i == j
    case (Float32Cell(f), Float32Flag(g)) => f == g
    case (Float64Cell(f), Float64Flag(g)) => f == g
    case _ => false
  }

  /** The resolver supplies a value for this kind: a non-empty string, or a set key. */
  predicate Supplied(c: Cell, key: string, r: Resolver)
  {
    if c.StrCell? then r.getString(key) != "" else r.isSet(key)
  }

  /** Two cells of the same kind with the same Go type hold the same `Reads` answer. */
  lemma SameKindReads(v: Version, a: Cell, b: Cell)
    requires SameKind(a, b)
    ensures Reads(v, a) == Reads(v, b)
  {
  }

  /**
    Assigning a leaf a second time from the same resolver changes nothing: the new value
    depends on the prior value only where the prior value is kept.
   */
  lemma AssignCellIdempotent(v: Version, c: Cell, tags: Tags, key: string, r: Resolver, num: Numerics)
    ensures var once := AssignCell(v, c, tags, key, r, num);
      AssignCell(v, once, tags, key, r, num) == once
  {
  }

  /**
    coil.go:156-211: when the resolver supplies a value, the field takes exactly that value,
    converted to the field's kind, so it wins over both the `default` tag and the field's prior
    value.
   */
  lemma SuppliedValueWins(c: Cell, c2: Cell, tags: Tags, tags2: Tags, key: string, r: Resolver, num: Numerics)
    requires SameKind(c, c2) && Reads(Current, c)
    requires Supplied(c, key, r)
    ensures var c' := AssignCell(Current, c, tags, key, r, num);
      && (c.StrCell? ==> c' == StrCell(r.getString(key)))
      && (c.BoolCell? ==> c' == BoolCell(r.getBool(key)))
      && (c.IntCell? ==> c' == IntCell(r.getInt64(key)))
      && (c.Float32Cell? ==> c' == Float32Cell(num.toFloat32(r.getFloat64(key))))
      && (c.Float64Cell? ==> c' == Float64Cell(r.getFloat64(key)))
    ensures AssignCell(Current, c, tags, key, r, num) == AssignCell(Current, c2, tags2, key, r, num)
  {
  }

  /**
    coil.go:161-165: an empty resolved string is treated as absent, whether or not the key is
    set, and the `default` tag is used instead.
   */
  lemma EmptyStringFallsBack(c: Cell, tags: Tags, key: string, r: Resolver, num: Numerics)
    requires c.StrCell? && r.getString(key) == ""
    ensures AssignCell(Current, c, tags, key, r, num) == StrCell(tags.default)
  {
  }

  /**
    coil.go:172-177 and 104-109: a bool flag and an unset bool field both default to true only
    for the exact text "true".
   */
  lemma BoolDefaultExactlyTrue(c: Cell, tags: Tags, key: string, r: Resolver, num: Numerics)
    requires c.BoolCell? && !r.isSet(key)
    ensures AssignCell(Current, c, tags, key, r, num) == BoolCell(true) <==> tags.default == "true"
    ensures DefaultValue("bool", tags.default, num) == Some(BoolFlag(true)) <==> tags.default == "true"
  {
  }

  lemma BoolDefaultExamples(c: Cell, key: string, r: Resolver, num: Numerics)
    requires c.BoolCell? && !r.isSet(key)
    ensures AssignCell(Current, c, Tags("bool", "debug", "TRUE", ""), key, r, num) == BoolCell(false)
    ensures AssignCell(Current, c, Tags("bool", "debug", "1", ""), key, r, num) == BoolCell(false)
    ensures DefaultValue("bool", "True", num) == Some(BoolFlag(false))
  {
    BoolDefaultExactlyTrue(c, Tags("bool", "debug", "TRUE", ""), key, r, num);
    BoolDefaultExactlyTrue(c, Tags("bool", "debug", "1", ""), key, r, num);
  }

  /**
    The two passes agree on defaults: for a field whose `type` tag fits its kind, when the
    resolver supplies nothing the assigned value is the default the flag was declared with, and
    when the default does not parse (so no flag was declared) the field keeps its prior value.
   */
  lemma DefaultsAgree(c: Cell, tags: Tags, prefix: string, key: string, r: Resolver, num: Numerics)
    requires TagFitsKind(tags.typeTag, c) && tags.name != ""
    requires !r.isSet(key) && r.getString(key) == ""
    ensures match DeclareLeaf(Current, prefix, tags, num)
      case Some(d) => Holds(AssignCell(Current, c, tags, key, r, num), d.value)
      case None => AssignCell(Current, c, tags, key, r, num) == c
  {
  }

  /**
    A leaf with no tags at all, read from a resolver that knows nothing under the empty key,
    keeps the zero value of a string or bool and the prior value of a number.
   */
  lemma UntaggedLeafUnchanged(c: Cell, r: Resolver, num: Numerics)
    requires !r.isSet("") && r.getString("") == ""
    requires num.parseFloat32("") == None && num.parseFloat64("") == None
    ensures AssignCell(Current, c, Tags("", "", "", ""), "", r, num)
         == match c
            case StrCell(_) => StrCell("")
            case BoolCell(_) => BoolCell(false)
            case _ => c
  {
    assert ParseInt("") == None;
  }
}

=== FILE: wrappers.dfy ===
/** Optional values, used wherever the Go code reports success through an `err == nil` check. */
module Wrappers {

  datatype Option<+T> = None | Some(value: T) {

    /** Returns the value in Some, or `default` when None */
    function GetOr(default: T): T {
      match this
      case Some(v) => v
      case None => default
    }
  }

  /** The zero- or one-element sequence holding the value of `o`. */
  function ToSeq<T>(o: Option<T>): (s: seq<T>)
    ensures |s| <= 1
    ensures o.Some? <==> |s| == 1
    ensures o.Some? ==> s[0] == o.value
  {
    match o
    case Some(v) => [v]
    case None => []
  }
}
